=== FILE: README.md ===
# Credential event pipeline — a Dafny model

This project models how an issued credential travels from the issuing
service to the verifying service of a two-service credential system, and
proves properties of that path.

- **Issuing side.** `IssuanceService.issueCredential` checks for a duplicate
  (holder, type, issuer) triple, draws a fresh id, inserts the credential
  into its store and hands it to the event wrapper (`EventService`).
- **Event wrapper.** It publishes a `CREDENTIAL_ISSUED` event on a Redis
  channel. When the publish fails, it parks a copy in a delay-ordered Redis
  sorted set with exponential backoff (1 s doubling, capped at 60 s). A
  periodic scan re-publishes at most ten due copies per pass. After five
  attempts a copy goes to a dead-letter list and a hash index instead. The
  wrapper keeps monotonic counters, reports metrics and queue sizes, and
  offers a manual replay of the dead-letter list.
- **Verifying side.** `EventSubscriber` parses each message, drops event ids
  it has already applied (a bounded in-memory cache that evicts its oldest
  half), and inserts the carried credential unless a row with that id
  exists. It records the sync in a hash and a trimmed timeline, and captures
  every failure in a bounded list that an operator can replay.
  `VerificationService.verifyCredential` then answers from the verifying
  store.

Every operation is a pure function on an immutable state record. Redis
sorted sets are sequences of scored members kept sorted with no member
twice. Lists are sequences, and hashes and counters are maps. Each SQLite
table is a map from id to credential. Time is a natural number of
milliseconds. Whether a broker or store command succeeds is a boolean (or,
for a chain of writes, how many of them land) passed in by the caller.
Stored JSON is either `Intact(value)` or `Corrupt(raw)`.

Modules, one per file:

- `Wrappers`: `Option` and `Result`.
- `Broker`: the sorted-set and list commands used (ZADD, ZREM, ZRANGEBYSCORE
  with LIMIT, ZREVRANGE, ZREMRANGEBYRANK, LTRIM, ZCARD), with Redis
  start/stop index rules.
- `Counters`: INCR keys that read 0 when absent.
- `Credentials`: the credential record, the store, the wire event and
  decimal rendering.
- `Publisher` and `RetryScan`: the event wrapper's publish, retry entry and
  scan.
- `Maintenance`: metrics, queue statistics and the dead-letter replay.
- `Subscriber`, `Issuance` and `Verification`: the other three services.
- `Pipeline`: properties of the two ends joined.

Behaviour the proofs pin down:

- A failed retry keeps the original member in the retry set. The next scan
  fetches it again while its successor waits.
- An event whose publish and fallback enqueue both fail is lost.
- An exhausted copy whose dead-letter push fails is removed and lost.
- A dead-letter replay clears the whole list once any entry goes through,
  including entries whose publish failed.
- A failed-events replay deletes envelopes re-captured during the same pass.
- With a duplicated message handler (stop then start), each message is
  handled twice. Run one after the other, as in this model, the second
  handling is a dedup skip; the program's handlers are asynchronous and can
  both reach the store.
- A single landed capture write (push without trim) lets the failed list
  reach 1001 entries.

## Model

| member | source | states |
|---|---|---|
| `Broker.ZAdd` | services/issuance-service/src/services/eventService.ts:103-105 | ZADD adds the member with its score, replacing an earlier score of the same member; the set stays sorted with no member twice |
| `Broker.ZRem` | services/issuance-service/src/services/eventService.ts:165-171 | ZREM removes exactly the given member and keeps order and distinctness |
| `Broker.RangeByScore` | services/issuance-service/src/services/eventService.ts:132-139 | ZRANGEBYSCORE 0 now LIMIT 0 n returns at most n members, a prefix of the set, all with score at most now; fewer than n only when no further member is due |
| `Broker.TrimKeepsHighest` | services/verification-service/src/services/eventSubscriber.ts:181-182 | ZREMRANGEBYRANK 0 -(k+1) keeps exactly the k highest-scored entries |
| `Broker.RevRangeTop` | services/verification-service/src/services/eventSubscriber.ts:274-275 | ZREVRANGE 0 limit-1 yields min(limit, n) members from the highest score down; limit 0 yields the whole set |
| `Broker.ZCard` | services/issuance-service/src/services/eventService.ts:236-238 | the size read equals the number of distinct members |
| `Counters.Incr` | services/issuance-service/src/services/eventService.ts:201-202 | INCR raises one key by one, an absent key counting as 0, and changes no other key |
| `Credentials.Lookup` | services/issuance-service/src/utils/database.ts:124-148 | lookup by id finds the row exactly when the id is stored, and fails only on a store error |
| `Credentials.Insert` | services/issuance-service/src/utils/database.ts:90-121 | the insert succeeds exactly when the store is reachable and the id is new; it adds that one row and keeps every other |
| `Publisher.Backoff` | services/issuance-service/src/services/eventService.ts:92-95 | the delay is min(1000·2^n, 60000), always between 1000 and 60000 |
| `Publisher.BackoffDoubles` | services/issuance-service/src/services/eventService.ts:94-95 | each further failure doubles the delay until it reaches the 60 s cap |
| `Publisher.BackoffSchedule` | services/issuance-service/src/services/eventService.ts:94-95 | the delays are 1000, 2000, 4000, 8000, 16000, 32000 ms, then 60000 from the sixth count on |
| `Publisher.NewEvent` | services/issuance-service/src/services/eventService.ts:60-68 | a new event carries the credential, count 0, five allowed retries, and an event id distinct from its correlation id |
| `Publisher.Successor` | services/issuance-service/src/services/eventService.ts:97-101 | a retry copy has count+1 and a fresh timestamp, keeps id, correlation id, credential and retry budget, and differs from the original |
| `Publisher.IncrementMetric` | services/issuance-service/src/services/eventService.ts:199-211 | the metric, the total and the metric's counter for the day each rise by one; no other counter moves, none falls |
| `Publisher.AddToRetryQueue` | services/issuance-service/src/services/eventService.ts:90-113 | an accepted enqueue adds exactly the successor, due now plus the backoff of the old count, replacing only an earlier score of that same copy; every other entry keeps its member and its score; a refused one changes nothing |
| `Publisher.PublishCredentialIssued` | services/issuance-service/src/services/eventService.ts:59-87 | success appends the event to the channel and counts it as published; failure counts it as failed and, if the enqueue lands, adds exactly the first retry copy, due 1 s later, keeping every other entry with its score; the other counters and the dead-letter state never change |
| `Publisher.PublishLost` | services/issuance-service/src/services/eventService.ts:81-112 | when the publish and the fallback enqueue both fail, the credential reaches neither the channel nor the retry set |
| `Publisher.MoveToDeadLetterQueue` | services/issuance-service/src/services/eventService.ts:176-197 | a landed push prepends the entry with reason MAX_RETRIES_EXCEEDED and raises exactly the dead-lettered, total and daily dead-lettered counters, by one; the index gets it only if its write also lands; a failed push changes nothing |
| `Publisher.DueBatch` | services/issuance-service/src/services/eventService.ts:129-139 | a scan fetches at most ten members, lowest scores first, each due at now |
| `Publisher.RetryEntryCases` | services/issuance-service/src/services/eventService.ts:141-172 | unparseable: removed; exhausted: dead-lettered and removed, never published; otherwise published and removed, or on failure a successor is added while the original stays |
| `RetryScan.RetryEntryAccounting` | services/issuance-service/src/services/eventService.ts:141-172 | for one member: the retried counter moves with the channel, the dead-lettered counter with the dead-letter list, and published and failed do not move |
| `RetryScan.RetryAllCounters` | services/issuance-service/src/services/eventService.ts:141-173 | over a whole batch, the same counter accounting holds and no counter falls |
| `RetryScan.RetryAllOutputs` | services/issuance-service/src/services/eventService.ts:141-173 | a scan appends to the channel exactly its successful retries in fetch order, and pushes exactly its exhausted copies whose push landed |
| `RetryScan.RepublishedAreRetries` | services/issuance-service/src/services/eventService.ts:145-156 | every event a scan publishes is a fetched copy with retries left |
| `RetryScan.ExhaustedAreFetched` | services/issuance-service/src/services/eventService.ts:145-148 | every dead-letter entry of a scan is a fetched exhausted copy, stamped now, reason MAX_RETRIES_EXCEEDED |
| `RetryScan.RetryAllSettles` | services/issuance-service/src/services/eventService.ts:141-173 | while dead-letter pushes land, a member that leaves the set was fetched and was unparseable, published or dead-lettered |
| `RetryScan.DeadLetterPushLost` | services/issuance-service/src/services/eventService.ts:176-196 | when the dead-letter push fails, the exhausted copy leaves the set without reaching any list, index or counter |
| `RetryScan.RetryAllKeeps` | services/issuance-service/src/services/eventService.ts:141-173 | a member the scan did not fetch stays in the set |
| `RetryScan.RetryAllQueue` | services/issuance-service/src/services/eventService.ts:141-173 | a scan keeps the set sorted with no member twice, and every copy within its retry budget |
| `RetryScan.RetryAllDrains` | services/issuance-service/src/services/eventService.ts:141-173 | over a batch with no member twice and none stamped at the scan's instant: an unparseable, exhausted or published member leaves the set; a member whose publish failed stays (the `continue` skips its ZREM), and its successor is in the set, due after the backoff, when the ZADD landed |
| `RetryScan.RetryAllAhead` | services/issuance-service/src/services/eventService.ts:90-113 | a scan only adds copies scored a positive backoff after their own timestamp, so every copy stays due after its timestamp |
| `RetryScan.PublishKeepsAhead` | services/issuance-service/src/services/eventService.ts:81-87 | the first retry copy of a publish is also due after its timestamp |
| `Publisher.FallBack` | services/issuance-service/src/services/eventService.ts:81-87 | the catch branch of a publish: the enqueue's effect on the set (exactly the successor added, every other entry kept), then one more failure counted, every other counter unchanged |
| `RetryScan.ProcessRetryQueue` | services/issuance-service/src/services/eventService.ts:128-174 | one timer tick: a failed fetch changes nothing; otherwise the due batch of at most ten is processed: the channel gains exactly its successful retries in fetch order, the dead-letter list exactly its exhausted copies whose push landed, unfetched members stay, the set stays sorted with no member twice, and the counters only grow; on a valid set whose copies are due after their timestamps, every fetched member that was unparseable, exhausted or published is gone, and every one whose publish failed stays, with its successor due after the backoff when that ZADD landed; copies stay due after their timestamps |
| `RetryScan.LineageKeepsIdentity` | services/issuance-service/src/services/eventService.ts:97-101 | after k failed attempts a copy has count k, the original event id, correlation id, credential and budget |
| `RetryScan.AlwaysFailingSchedule` | services/issuance-service/src/services/eventService.ts:145-166 | an always-failing event is re-attempted while its count is below 5, each next copy due after Backoff(count); no attempt changes the channel; it is dead-lettered at count 5 exactly when the push lands |
| `RetryScan.FirstCopyIsLineage` | services/issuance-service/src/services/eventService.ts:84-85 | the first copy of a failed publish is the one-step lineage, due 1 s later |
| `Maintenance.GetMetrics` | services/issuance-service/src/services/eventService.ts:213-232 | the four counters, missing ones as 0; all zeros when the broker cannot be read |
| `Maintenance.PublishMovesOneMetric` | services/issuance-service/src/services/eventService.ts:73-87 | each publish call moves exactly one of published and failed, by one, and published exactly when the publish succeeded |
| `Maintenance.GetQueueStats` | services/issuance-service/src/services/eventService.ts:234-254 | the retry set's member count and the dead-letter length with status healthy, or -1, -1, error |
| `Maintenance.Reset` | services/issuance-service/src/services/eventService.ts:265-270 | a replayed event has count 0 and the replay timestamp, and keeps id, credential and budget |
| `Maintenance.RepublishMembers` | services/issuance-service/src/services/eventService.ts:261-278 | an event is republished exactly when some parseable entry holding it was published successfully |
| `Maintenance.RepublishAll` | services/issuance-service/src/services/eventService.ts:261-278 | with every entry parseable and every publish accepted, the whole list is republished entry by entry |
| `Maintenance.RepublishShort` | services/issuance-service/src/services/eventService.ts:261-278 | one unparseable entry or refused publish means fewer republished events than entries |
| `Maintenance.ReprocessDeadLetterQueue` | services/issuance-service/src/services/eventService.ts:256-294 | a failed read returns 0 and changes nothing; otherwise the channel gains exactly the republished events; unless something was republished and the list delete landed, list and index are untouched; if so, the list is emptied and the index is cleared exactly when its delete lands too; the count is positive exactly when everything landed, and is then the number republished |
| `Maintenance.ReplayDropsFailedEntry` | services/issuance-service/src/services/eventService.ts:275-286 | if one entry fails while another goes through, the list is cleared and fewer events are counted than it held |
| `Subscriber.StartListening` | services/verification-service/src/services/eventSubscriber.ts:60-86 | a no-op when listening; otherwise one more handler is registered, and the flag is set exactly when the subscribe succeeds, the error rethrown otherwise; nothing else changes |
| `Subscriber.StopListening` | services/verification-service/src/services/eventSubscriber.ts:324-336 | a no-op unless listening; a successful unsubscribe clears the flag; handlers stay registered and nothing else changes |
| `Subscriber.RestartDoublesHandlers` | services/verification-service/src/services/eventSubscriber.ts:66-79 | from a fresh subscriber, start, stop, start leaves two message handlers |
| `Subscriber.AddToProcessedEvents` | services/verification-service/src/services/eventSubscriber.ts:190-203 | the cache after adding is a suffix of the cache with the id appended, and holds the new id |
| `Subscriber.ProcessedCacheBounded` | services/verification-service/src/services/eventSubscriber.ts:190-203 | the cache stays within 10000 distinct ids; an overflow keeps exactly the newest 5001 |
| `Subscriber.IncrementOutcome` | services/verification-service/src/services/eventSubscriber.ts:232-243 | the outcome counter and its daily counter rise by one, nothing else moves |
| `Subscriber.TrimTimeline` | services/verification-service/src/services/eventSubscriber.ts:181-182 | the trimmed timeline is the newest 1000 records, still a valid sorted set |
| `Subscriber.TrackSynced` | services/verification-service/src/services/eventSubscriber.ts:154-188 | a landed hash write indexes the record under the credential id, keeping every other entry; a landed add puts it in the timeline, keeping every other member; a landed trim then keeps exactly the 1000 highest-scored entries of that set; nothing else changes |
| `Subscriber.CaptureFailure` | services/verification-service/src/services/eventSubscriber.ts:205-230 | a landed push puts the envelope (message, cause, now, now+30000) in front of the old list; a landed trim then keeps exactly the first min(1000, n) entries of that list; nothing else changes |
| `Subscriber.ProcessCredentialIssued` | services/verification-service/src/services/eventSubscriber.ts:123-152 | fails exactly on a missing credential or a store error; otherwise inserts the credential only if its id is absent |
| `Subscriber.Fail` | services/verification-service/src/services/eventSubscriber.ts:112-120 | a failure is counted and captured, the cache and store untouched |
| `Subscriber.Handle` | services/verification-service/src/services/eventSubscriber.ts:88-121 | a cached event id or a foreign event type changes nothing |
| `Subscriber.HandleCases` | services/verification-service/src/services/eventSubscriber.ts:88-152 | applied: the credential is in the store (inserted exactly when absent), its id cached, success counted; failed: counted, captured, id uncached; no existing row ever changes |
| `Subscriber.HandleIdempotent` | services/verification-service/src/services/eventSubscriber.ts:94-107 | handling an applied message again changes nothing |
| `Subscriber.StoredCredentialIsFinal` | services/verification-service/src/services/eventSubscriber.ts:129-134 | once a row with the id exists, no event for that id changes the store |
| `Subscriber.HandleKeepsBounds` | services/verification-service/src/services/eventSubscriber.ts:88-230 | handling keeps the cache bounded and distinct and the timeline valid; the failed list stays within 1000 unless only the push lands |
| `Subscriber.UntrimmedCaptureOverflows` | services/verification-service/src/services/eventSubscriber.ts:219-223 | a push without its trim takes a full failed list to 1001 entries |
| `Subscriber.Deliver` | services/verification-service/src/services/eventSubscriber.ts:70-74 | nothing is delivered while unsubscribed; with the one handler of a single start, a delivery is exactly one handling; delivery never changes the listening state |
| `Subscriber.DoubleDeliveryAppliesOnce` | services/verification-service/src/services/eventSubscriber.ts:70-98 | with two handlers an applied message has the effect of one handling |
| `Subscriber.Replay` | services/verification-service/src/services/eventSubscriber.ts:297-308 | the replay counts exactly the parseable envelopes |
| `Subscriber.ReprocessAppliesEnvelope` | services/verification-service/src/services/eventSubscriber.ts:297-308 | each envelope is handled again: one whose message applies on the state the earlier envelopes leave has its credential stored afterwards, whether or not the delete lands |
| `Subscriber.ReplayInOutage` | services/verification-service/src/services/eventSubscriber.ts:297-308 | with every lookup failing, a replay leaves store and cache as they were, adds one failure per unparseable or uncached CREDENTIAL_ISSUED message, and no success |
| `Subscriber.Refailing` | services/verification-service/src/services/eventSubscriber.ts:88-121 | the messages that fail again are at most the parseable envelopes, and all of them when every message is unparseable or an uncached CREDENTIAL_ISSUED event |
| `Subscriber.ReprocessFailedEvents` | services/verification-service/src/services/eventSubscriber.ts:292-322 | with the read and the delete landing, returns the number of parseable envelopes; a positive count leaves the list empty; nothing parseable or a failed read returns 0 and changes nothing; the count never exceeds the list |
| `Subscriber.ReplayDuringOutageLoses` | services/verification-service/src/services/eventSubscriber.ts:297-314 | a replay during a store outage counts every parseable envelope as replayed, counts one more processed_failed per message that fails again and no success, stores none, caches none, and leaves the list empty |
| `Subscriber.GetMetrics` | services/verification-service/src/services/eventSubscriber.ts:245-270 | the two counters, the failed-list length, the flag and the cache size; on error zeros and the flag |
| `Subscriber.MetricsCountHandling` | services/verification-service/src/services/eventSubscriber.ts:100-118 | the reported counters follow the handlings: an applied message adds one success, a failed one one failure, an ignored one neither |
| `Subscriber.GetSyncedCredentials` | services/verification-service/src/services/eventSubscriber.ts:272-290 | at most limit (for a positive limit) parseable records drawn from the timeline; empty on error |
| `Subscriber.SyncedNewestFirst` | services/verification-service/src/services/eventSubscriber.ts:272-284 | with parseable records, exactly the newest min(limit, n), newest first; all of them for limit 0 |
| `Issuance.WorkerId` | services/issuance-service/src/services/issuanceService.ts:13 | the worker id is "worker-" and the pod name when the pod name is set and non-empty, otherwise host name, '-', process id |
| `Issuance.IssuedByDoublePrefix` | services/issuance-service/src/services/issuanceService.ts:54 | under a non-empty pod name, issuedBy reads "worker-worker-" and the pod name |
| `Issuance.UuidForInjective` | services/issuance-service/src/services/issuanceService.ts:40 | distinct draws give distinct ids |
| `Issuance.Build` | services/issuance-service/src/services/issuanceService.ts:40-55 | the credential copies holder, type, issuer, expiry and metadata from the request, with the worker stamps and the day of issue |
| `Issuance.IssueCredential` | services/issuance-service/src/services/issuanceService.ts:19-77 | a check error raises "Failed to issue credential: …" with nothing written; so does an insert error, before anything is published; a duplicate triple is an unsuccessful response with nothing written; otherwise exactly one insert then one publish of the returned credential |
| `Issuance.IssueSucceeds` | services/issuance-service/src/services/issuanceService.ts:39-71 | with the store up and a fresh triple, issuance succeeds, adds exactly the new id and keeps every id one the service drew |
| `Issuance.FreshIdAbsent` | services/issuance-service/src/services/issuanceService.ts:40 | the next drawn id is not yet a row |
| `Issuance.BrokerFailureInvisible` | services/issuance-service/src/services/issuanceService.ts:61-71 | the response and the store do not depend on the publish or its fallback succeeding |
| `Issuance.SuccessiveIdsDiffer` | services/issuance-service/src/services/issuanceService.ts:40 | two successive successful issuances return different ids |
| `Issuance.ServiceReport` | services/issuance-service/src/services/issuanceService.ts:79-98 | the report holds both reads, or the first read error, with the worker id |
| `Issuance.GetMetrics` | services/issuance-service/src/services/issuanceService.ts:79-98 | composed with the wrapper's two reads, each catching its own errors, the fallback is never taken: each part is its read's value, or zeros, or -1, -1, error, independently of the other |
| `Issuance.ReprocessOutcome` | services/issuance-service/src/services/issuanceService.ts:100-110 | the replay's count, or 0 when it throws |
| `Issuance.ReprocessFailedEvents` | services/issuance-service/src/services/issuanceService.ts:100-110 | the count and effect of the dead-letter replay; a positive count leaves the list empty |
| `Verification.VerifyCredential` | services/verification-service/src/services/verificationService.ts:13-45 | found: success and valid with the stored row; absent: unsuccessful, invalid, no credential; store error: "Failed to verify credential"; success always equals isValid |
| `Pipeline.Encode` | services/issuance-service/src/services/eventService.ts:74 | the channel message carries the event's type, id, credential, correlation id and count |
| `Pipeline.AppliedIsVerifiable` | services/verification-service/src/services/verificationService.ts:18-29 | after the subscriber applies an event, its credential verifies as valid, with the event's credential when the id was new |
| `Pipeline.IssuedCredentialBecomesVerifiable` | services/issuance-service/src/services/issuanceService.ts:57-62 | with every command succeeding, an issued credential is published once and, once delivered, verifies with exactly the issued record |
| `Pipeline.RetriedCopyDeduplicated` | services/verification-service/src/services/eventSubscriber.ts:94-98 | a retry copy of a cached event is a dedup skip |
| `Pipeline.ReplayedEventKeepsRow` | services/verification-service/src/services/eventSubscriber.ts:129-134 | a dead-letter replay of an already-stored credential never changes its row |

## Left out

- Redis client plumbing (connections, duplicated clients, event listeners, `quit`) and `shutdown`: I/O with no effect on the modelled state.
- The five-second timer and concurrency. A scan is one atomic step at an instant. Handlers run one message at a time, one after another. The real handlers are asynchronous, so two of them can pass the dedup check before either caches the id.
- `Date.now` and ISO strings: one instant in milliseconds per operation, where the source reads the clock several times. The day key is the instant divided by 86400000.
- JSON: a stored value either parses or does not (`Intact`/`Corrupt`). A parseable message that is not an object is treated as unparseable.
- Field order and extra fields of JSON: a replayed dead-letter message also carries `deadLetteredAt` and `reason`, which the subscriber ignores.
- `customDelay` of `addToRetryQueue`: no caller passes it.
- Failed counter increments: `incrementMetric` swallows them, and they would only leave a counter lower. Increments are modelled as landing.
- Failed ZREM inside a scan: the error falls into the parse-error handler, which issues the same ZREM again; removal is modelled as landing.
- Redis sorted-set tie order: members with equal scores are ordered here by insertion; Redis orders them lexicographically.
- The verifying store: services/verification-service/src/utils/database.ts is not part of this model. It is taken to behave like the issuing store (primary key on id).
- Store-side details: the metadata JSON fallback on read, and `expiryDate || null` on insert.
- Version-4 uuids: modelled as an injective sequence of draws, taking random collisions as impossible.
- Error objects (name, message, stack): reduced to a cause (`Cause`) or a fixed message text (`Issuance.StoreErrorText`).
- HTTP controllers, applications, front ends and compiled `dist` copies.
- RetryScan.RetryAllSettles: stated only while dead-letter pushes land; `RetryScan.DeadLetterPushLost` covers the case where one fails.
- Subscriber.DoubleDeliveryAppliesOnce: holds for handlers run in sequence, not for interleaved asynchronous handlers.

=== FILE: broker.dfy ===
/** The broker's auxiliary structures (Redis sorted sets and lists) as values.

    A sorted set is a sequence of scored members kept in non-decreasing score
    order with no member twice. Ranges take Redis start/stop indices, where a
    negative index counts from the end and `stop` is inclusive. */
module Broker {

  datatype Scored<T> = Scored(score: nat, member: T)

  predicate Sorted<T>(q: seq<Scored<T>>) {
    forall i, j :: 0 <= i < j < |q| ==> q[i].score <= q[j].score
  }

  predicate Distinct<T(==)>(q: seq<Scored<T>>) {
    forall i, j :: 0 <= i < j < |q| ==> q[i].member != q[j].member
  }

  /** The invariant every sorted set of the model keeps. */
  predicate ValidZSet<T(==)>(q: seq<Scored<T>>) {
    Sorted(q) && Distinct(q)
  }

  function Members<T>(q: seq<Scored<T>>): set<T> {
    set e | e in q :: e.member
  }

  /** ZREM: removes `m` and nothing else. */
  function ZRem<T(==,!new)>(q: seq<Scored<T>>, m: T): (r: seq<Scored<T>>)
    ensures Members(r) == Members(q) - {m}
    ensures forall e :: e in r <==> e in q && e.member != m
    ensures |r| <= |q|
    ensures m !in Members(q) ==> r == q
    ensures Sorted(q) ==> Sorted(r)
    ensures Distinct(q) ==> Distinct(r)
  {
    if q == [] then []
    else
      var rest := ZRem(q[1..], m);
      TailOf(q);
      ConsSorted(q[0], rest);
      ConsDistinct(q[0], rest);
      var r := if q[0].member == m then rest else [q[0]] + rest;
      FilterMembers(q, r, m);
      r
  }

  /** A sequence holding exactly the entries of `q` whose member is not `m`
      has the members of `q` other than `m`. */
  lemma {:induction false} FilterMembers<T>(q: seq<Scored<T>>, r: seq<Scored<T>>, m: T)
    requires forall e :: e in r <==> e in q && e.member != m
    ensures Members(r) == Members(q) - {m}
  {
    forall x | x in Members(q) - {m} ensures x in Members(r) {
      var e :| e in q && e.member == x;
    }
  }

  /** A non-empty set is its head in front of its tail; the tail keeps the
      invariant and lies above and apart from the head. */
  lemma {:induction false} TailOf<T>(q: seq<Scored<T>>)
    requires q != []
    ensures q == [q[0]] + q[1..]
    ensures forall e :: e in q <==> e == q[0] || e in q[1..]
    ensures Sorted(q) ==> Sorted(q[1..]) && forall e :: e in q[1..] ==> q[0].score <= e.score
    ensures Distinct(q) ==> Distinct(q[1..]) && forall e :: e in q[1..] ==> e.member != q[0].member
  {
    assert q == [q[0]] + q[1..];
    forall e | e in q[1..] ensures e in q && (Sorted(q) ==> q[0].score <= e.score)
                              && (Distinct(q) ==> e.member != q[0].member) {
      var k :| 0 <= k < |q[1..]| && q[1..][k] == e;
      assert q[k + 1] == e;
    }
  }

  /** An entry no higher than the rest can go in front of a sorted set. */
  lemma {:induction false} ConsSorted<T>(x: Scored<T>, rest: seq<Scored<T>>)
    ensures Sorted(rest) && (forall e :: e in rest ==> x.score <= e.score) ==> Sorted([x] + rest)
  {
    var r := [x] + rest;
    if Sorted(rest) && (forall e :: e in rest ==> x.score <= e.score) {
      forall i, j | 0 <= i < j < |r| ensures r[i].score <= r[j].score {
        if i == 0 { assert r[j] in rest; } else { assert r[i] == rest[i - 1] && r[j] == rest[j - 1]; }
      }
    }
  }

  /** An entry whose member is new can go in front of a distinct set. */
  lemma {:induction false} ConsDistinct<T>(x: Scored<T>, rest: seq<Scored<T>>)
    ensures Distinct(rest) && (forall e :: e in rest ==> e.member != x.member) ==> Distinct([x] + rest)
  {
    var r := [x] + rest;
    if Distinct(rest) && (forall e :: e in rest ==> e.member != x.member) {
      forall i, j | 0 <= i < j < |r| ensures r[i].member != r[j].member {
        if i == 0 { assert r[j] in rest; } else { assert r[i] == rest[i - 1] && r[j] == rest[j - 1]; }
      }
    }
  }

  /** Inserts a scored member after every entry whose score is not larger. */
  function Insert<T(!new)>(q: seq<Scored<T>>, score: nat, m: T): (r: seq<Scored<T>>)
    ensures |r| == |q| + 1
    ensures forall e :: e in r <==> e == Scored(score, m) || e in q
  {
    if q == [] then [Scored(score, m)]
    else if score < q[0].score then [Scored(score, m)] + q
    else
      assert forall e :: e in q <==> e == q[0] || e in q[1..];
      [q[0]] + Insert(q[1..], score, m)
  }

  lemma {:induction false} InsertSorted<T(!new)>(q: seq<Scored<T>>, score: nat, m: T)
    requires Sorted(q)
    ensures Sorted(Insert(q, score, m))
  {
    if q != [] && score >= q[0].score {
      InsertSorted(q[1..], score, m);
      var rest := Insert(q[1..], score, m);
      assert rest[0] in rest;
      assert rest[0] == Scored(score, m) || rest[0] in q[1..];
    }
  }

  lemma {:induction false} InsertDistinct<T(!new)>(q: seq<Scored<T>>, score: nat, m: T)
    requires Distinct(q) && m !in Members(q)
    ensures Distinct(Insert(q, score, m))
  {
    if q != [] && score >= q[0].score {
      assert q[0] in q;
      InsertDistinct(q[1..], score, m);
      var rest := Insert(q[1..], score, m);
      forall e | e in rest ensures e.member != q[0].member {
        if e != Scored(score, m) {
          var k :| 0 <= k < |q[1..]| && q[1..][k] == e;
          assert q[k + 1] == e;
        }
      }
      var r := [q[0]] + rest;
      forall i, j | 0 <= i < j < |r| ensures r[i].member != r[j].member {
        if i == 0 { assert r[j] in rest; }
        else { assert r[i] == rest[i - 1] && r[j] == rest[j - 1]; }
      }
    } else if q != [] {
      assert forall e :: e in q ==> e.member != m;
    }
  }

  lemma InsertValid<T(!new)>(q: seq<Scored<T>>, score: nat, m: T)
    ensures ValidZSet(q) && m !in Members(q) ==> ValidZSet(Insert(q, score, m))
  {
    if ValidZSet(q) && m !in Members(q) {
      InsertSorted(q, score, m);
      InsertDistinct(q, score, m);
    }
  }

  /** ZADD: `m` ends up in the set exactly once, with the given score; every
      other member keeps its entry. */
  function ZAdd<T(==,!new)>(q: seq<Scored<T>>, score: nat, m: T): (r: seq<Scored<T>>)
    ensures Scored(score, m) in r
    ensures forall e :: e in r <==> e == Scored(score, m) || (e in q && e.member != m)
    ensures Members(r) == Members(q) + {m}
    ensures ValidZSet(q) ==> ValidZSet(r)
  {
    var without := ZRem(q, m);
    InsertValid(without, score, m);
    Insert(without, score, m)
  }

  /** ZRANGEBYSCORE key 0 max LIMIT 0 limit: the lowest-scored members whose
      score is at most `max`, at most `limit` of them. */
  function RangeByScore<T>(q: seq<Scored<T>>, max: nat, limit: nat): (r: seq<T>)
    ensures |r| <= limit && |r| <= |q|
    ensures forall i :: 0 <= i < |r| ==> r[i] == q[i].member && q[i].score <= max
    ensures Sorted(q) && |r| < limit ==> forall i :: |r| <= i < |q| ==> q[i].score > max
  {
    if q == [] || limit == 0 || q[0].score > max then []
    else [q[0].member] + RangeByScore(q[1..], max, limit - 1)
  }

  /** Redis index normalisation for an inclusive [start, stop] range over a
      collection of length `len`, as the half-open slice [lo, hi). */
  function Span(start: int, stop: int, len: nat): (r: (nat, nat))
    ensures r.0 <= r.1 <= len
  {
    var s := if start < 0 then start + len else start;
    var e := if stop < 0 then stop + len else stop;
    var s' := if s < 0 then 0 else s;
    if s' > e || s' >= len then (0, 0)
    else (s', if e >= len then len else e + 1)
  }

  /** ZREMRANGEBYRANK key start stop. */
  function ZRemRangeByRank<T>(q: seq<Scored<T>>, start: int, stop: int): (r: seq<Scored<T>>)
    ensures |r| <= |q|
  {
    var (lo, hi) := Span(start, stop, |q|);
    q[..lo] + q[hi..]
  }

  /** ZREVRANGE key start stop: members from the highest score down. */
  function ZRevRange<T>(q: seq<Scored<T>>, start: int, stop: int): (r: seq<T>)
    ensures |r| <= |q|
  {
    var (lo, hi) := Span(start, stop, |q|);
    seq(hi - lo, i requires 0 <= i < hi - lo => q[|q| - 1 - (lo + i)].member)
  }

  /** LTRIM key start stop. */
  function LTrim<T>(l: seq<T>, start: int, stop: int): (r: seq<T>)
    ensures |r| <= |l|
  {
    var (lo, hi) := Span(start, stop, |l|);
    l[lo..hi]
  }

  /** Trimming ranks 0 .. -(k+1) keeps exactly the `k` highest-scored
      entries: a suffix of the set, of length min(k, |q|). */
  lemma {:induction false} TrimKeepsHighest<T>(q: seq<Scored<T>>, k: nat)
    ensures ZRemRangeByRank(q, 0, -(k + 1)) == if |q| > k then q[|q| - k..] else q
  {
    var (lo, hi) := Span(0, -(k + 1), |q|);
    if |q| > k {
      assert lo == 0 && hi == |q| - k;
    } else {
      assert lo == 0 && hi == 0;
    }
  }

  /** LTRIM 0 (k-1) keeps the first `k` elements. */
  lemma {:induction false} LTrimKeepsFirst<T>(l: seq<T>, k: nat)
    requires k >= 1
    ensures LTrim(l, 0, k - 1) == l[..if |l| < k then |l| else k]
  {
  }

  /** ZREVRANGE 0 (limit-1): for a positive limit, the `limit` highest
      members, highest first; for limit 0, stop is -1 and the whole set is
      returned. */
  lemma {:induction false} RevRangeTop<T>(q: seq<Scored<T>>, limit: int)
    ensures limit >= 1 ==> |ZRevRange(q, 0, limit - 1)| == if |q| < limit then |q| else limit
    ensures limit == 0 ==> |ZRevRange(q, 0, limit - 1)| == |q|
    ensures var r := ZRevRange(q, 0, limit - 1);
              forall i :: 0 <= i < |r| ==> r[i] == q[|q| - 1 - i].member
  {
  }

  /** ZCARD / LLEN: the number of entries. */
  function ZCard<T>(q: seq<Scored<T>>): (n: nat)
    ensures Distinct(q) ==> n == |Members(q)|
  {
    DistinctMembersCount(q);
    |q|
  }

  /** In a set with no member twice, there are as many members as entries. */
  lemma {:induction false} DistinctMembersCount<T>(q: seq<Scored<T>>)
    ensures Distinct(q) ==> |Members(q)| == |q|
  {
    if q != [] && Distinct(q) {
      TailOf(q);
      DistinctMembersCount(q[1..]);
      HeadMembers(q);
      assert q[0].member !in Members(q[1..]);
    }
  }

  lemma {:induction false} HeadMembers<T>(q: seq<Scored<T>>)
    requires q != []
    ensures Members(q) == {q[0].member} + Members(q[1..])
  {
    assert q == [q[0]] + q[1..];
    assert forall e :: e in q <==> e == q[0] || e in q[1..];
  }

  /** Trimming a sorted set to a suffix keeps it valid. */
  lemma TrimKeepsValid<T>(q: seq<Scored<T>>, k: nat)
    ensures ValidZSet(q) ==> ValidZSet(if |q| > k then q[|q| - k..] else q)
  {
    if |q| > k && ValidZSet(q) {
      var t := q[|q| - k..];
      assert forall i :: 0 <= i < |t| ==> t[i] == q[|q| - k + i];
    }
  }
}

=== FILE: counters.dfy ===
/** Monotonic metric counters kept in the broker as plain integer keys.
    An absent key reads as 0, as `parseInt(value || '0')` does. */
module Counters {

  function Get<K>(c: map<K, nat>, k: K): nat {
    if k in c then c[k] else 0
  }

  /** INCR on one key. */
  function Incr<K(!new)>(c: map<K, nat>, k: K): (r: map<K, nat>)
    ensures Get(r, k) == Get(c, k) + 1
    ensures forall j :: j != k ==> Get(r, j) == Get(c, j)
  {
    c[k := Get(c, k) + 1]
  }

  /** No counter ever goes down. */
  ghost predicate Grows<K(!new)>(c: map<K, nat>, c': map<K, nat>) {
    forall k :: Get(c, k) <= Get(c', k)
  }

  lemma {:induction false} GrowsTransitive<K(!new)>(a: map<K, nat>, b: map<K, nat>, c: map<K, nat>)
    requires Grows(a, b) && Grows(b, c)
    ensures Grows(a, c)
  {
    forall k ensures Get(a, k) <= Get(c, k) {
      assert Get(a, k) <= Get(b, k);
    }
  }
}

=== FILE: credentials.dfy ===
/** The credential record, the record store both services use, and the
    wire shape of the credential event carried on the channel. */
module Credentials {
  import opened Wrappers

  type Metadata = map<string, string>

  /** An issued credential. Instants are milliseconds since the epoch;
      `issueDate` is the UTC day number (the date part of the ISO string). */
  datatype Credential = Credential(
    id: string,
    holderName: string,
    credentialType: string,
    issueDate: nat,
    expiryDate: Option<string>,
    issuerName: string,
    metadata: Option<Metadata>,
    workerId: string,
    timestamp: nat,
    issuedBy: string)

  /** A record store table keyed by credential id. */
  type Store = map<string, Credential>

  datatype StoreError = Unavailable | DuplicateId

  const MillisPerDay: nat := 86400000

  /** The UTC calendar day of an instant (the key suffix of daily counters). */
  function DayOf(t: nat): nat {
    t / MillisPerDay
  }

  /** getCredentialById: the row, no row, or a storage error. */
  function Lookup(store: Store, id: string, ok: bool): (r: Result<Option<Credential>, StoreError>)
    ensures r.Success? <==> ok
    ensures r.Success? ==> (r.value.Some? <==> id in store)
    ensures r.Success? && id in store ==> r.value.value == store[id]
  {
    if !ok then Failure(Unavailable)
    else if id in store then Success(Some(store[id]))
    else Success(None)
  }

  /** insertCredential: a plain INSERT on a table whose primary key is `id`. */
  function Insert(store: Store, c: Credential, ok: bool): (r: Result<Store, StoreError>)
    ensures r.Success? <==> ok && c.id !in store
    ensures r.Success? ==> r.value.Keys == store.Keys + {c.id} && r.value[c.id] == c
    ensures r.Success? ==> forall id :: id in store ==> r.value[id] == store[id]
  {
    if !ok then Failure(Unavailable)
    else if c.id in store then Failure(DuplicateId)
    else Success(store[c.id := c])
  }

  /** checkIfCredentialExists: some row has this holder, type and issuer. */
  predicate TripleExists(store: Store, holderName: string, credentialType: string, issuerName: string) {
    exists id :: id in store && store[id].holderName == holderName
      && store[id].credentialType == credentialType && store[id].issuerName == issuerName
  }

  /** A value read back from the broker: either it parses, or it does not. */
  datatype Stored<T> = Intact(value: T) | Corrupt(raw: string)

  const CredentialIssued: string := "CREDENTIAL_ISSUED"

  /** A credential event as the subscriber reads it off the channel. */
  datatype WireEvent = WireEvent(
    eventType: string,
    eventId: string,
    timestamp: nat,
    credential: Option<Credential>,
    retryCount: nat,
    correlationId: string)

  /** A raw channel message: parseable as an event, or not. */
  type Message = Stored<WireEvent>

  function DigitChar(d: nat): char
    requires d < 10
  {
    (48 + d) as char
  }

  /** Decimal rendering of a natural number, most significant digit first. */
  function Digits(n: nat): (s: string)
    ensures 1 <= |s|
    ensures forall i :: 0 <= i < |s| ==> '0' <= s[i] <= '9'
  {
    if n < 10 then [DigitChar(n)] else Digits(n / 10) + [DigitChar(n % 10)]
  }

  /** Different numbers render differently. */
  lemma {:induction false} DigitsInjective(a: nat, b: nat)
    requires Digits(a) == Digits(b)
    ensures a == b
  {
    if a >= 10 && b >= 10 {
      var da, db := Digits(a), Digits(b);
      assert da[|da| - 1] == DigitChar(a % 10) && db[|db| - 1] == DigitChar(b % 10);
      assert Digits(a / 10) == da[..|da| - 1] == db[..|db| - 1] == Digits(b / 10);
      DigitsInjective(a / 10, b / 10);
    }
  }

  lemma PrefixCancels(p: string, x: string, y: string)
    requires p + x == p + y
    ensures x == y
  {
    assert x == (p + x)[|p|..];
  }
}

=== FILE: issuance.dfy ===
/** The issuing service (class IssuanceService): a duplicate check on the
    holder, type and issuer, a fresh id, an insert into the issuing store,
    and a publish through the event wrapper; plus its metric report and its
    entry point for the dead-letter replay. */
module Issuance {
  import opened Wrappers
  import opened Credentials
  import opened Counters
  import opened Publisher
  import opened Maintenance

  datatype CredentialRequest = CredentialRequest(
    holderName: string,
    credentialType: string,
    issuerName: string,
    expiryDate: Option<string>,
    metadata: Option<Metadata>)

  datatype IssuanceResponse = IssuanceResponse(
    success: bool,
    message: string,
    credential: Option<Credential>,
    workerId: string)

  /** The service's state: its worker id, the issuing store, how many ids it
      has drawn, and the event wrapper it publishes through. */
  datatype IssuanceService = IssuanceService(workerId: string, store: Store, draws: nat, events: EventService)

  /** The outcomes of the store and broker commands one issuance issues. */
  datatype IssueFaults = IssueFaults(checkOk: bool, insertOk: bool, publishOk: bool, zaddOk: bool)

  /** The worker id: "worker-" and the pod name when one is set and
      non-empty (the environment variable is tested for truthiness),
      otherwise host name, '-', process id. */
  function WorkerId(podName: Option<string>, hostName: string, pid: nat): (w: string)
    ensures podName.Some? && podName.value != "" ==> w == "worker-" + podName.value
    ensures podName.None? || podName.value == "" ==> w == hostName + "-" + Digits(pid)
  {
    if podName.Some? && podName.value != "" then "worker-" + podName.value else hostName + "-" + Digits(pid)
  }

  /** Credentials are stamped "worker-" + worker id, so under a pod name the
      prefix appears twice. */
  lemma {:induction false} IssuedByDoublePrefix(podName: string, hostName: string, pid: nat)
    requires podName != ""
    ensures "worker-" + WorkerId(Some(podName), hostName, pid) == "worker-worker-" + podName
  {
  }

  /** The id source: the n-th drawn id. Version-4 uuids are random; the model
      takes them as never repeating, which this injective rendering gives. */
  function UuidFor(n: nat): (id: string)
    ensures |id| > 5 && id[..5] == "uuid-"
  {
    "uuid-" + Digits(n)
  }

  lemma {:induction false} UuidForInjective(m: nat, n: nat)
    requires UuidFor(m) == UuidFor(n)
    ensures m == n
  {
    PrefixCancels("uuid-", Digits(m), Digits(n));
    DigitsInjective(m, n);
  }

  /** The text of a store error as it reaches the caller. */
  function StoreErrorText(e: StoreError): string {
    match e
    case Unavailable => "Database not initialized"
    case DuplicateId => "SQLITE_CONSTRAINT: UNIQUE constraint failed: credentials.id"
  }

  const IssueErrorPrefix: string := "Failed to issue credential: "

  /** The credential built for a request at instant `now` with id `id`. */
  function Build(req: CredentialRequest, id: string, workerId: string, now: nat): (c: Credential)
    ensures c.id == id && c.holderName == req.holderName && c.credentialType == req.credentialType
    ensures c.issuerName == req.issuerName && c.expiryDate == req.expiryDate && c.metadata == req.metadata
    ensures c.workerId == workerId && c.issuedBy == "worker-" + workerId
    ensures c.timestamp == now && c.issueDate == DayOf(now)
  {
    Credential(id, req.holderName, req.credentialType, DayOf(now), req.expiryDate, req.issuerName,
               req.metadata, workerId, now, "worker-" + workerId)
  }

  /** issueCredential. A failed store command becomes the error
      "Failed to issue credential: <reason>"; a duplicate triple is an
      unsuccessful response; otherwise the credential is inserted, then
      published, and returned. */
  function IssueCredential(s: IssuanceService, req: CredentialRequest, now: nat, f: IssueFaults)
    : (r: (Result<IssuanceResponse, string>, IssuanceService))
    ensures !f.checkOk ==> r == (Failure(IssueErrorPrefix + StoreErrorText(Unavailable)), s)
    ensures f.checkOk && TripleExists(s.store, req.holderName, req.credentialType, req.issuerName) ==>
      && r.1 == s && r.0.Success? && !r.0.value.success && r.0.value.credential.None?
      && r.0.value.message == "Credential already exists for " + req.holderName + " of type " + req.credentialType
    ensures f.checkOk && !TripleExists(s.store, req.holderName, req.credentialType, req.issuerName) && !f.insertOk ==>
      r.0 == Failure(IssueErrorPrefix + StoreErrorText(Unavailable))
    ensures r.0.Failure? ==> r.1.store == s.store && r.1.events == s.events
    ensures r.0.Failure? ==> |r.0.error| > |IssueErrorPrefix| && r.0.error[..|IssueErrorPrefix|] == IssueErrorPrefix
    ensures r.0.Success? && !r.0.value.success ==> r.1 == s
    ensures r.0.Success? ==> r.0.value.workerId == s.workerId
    ensures r.0.Success? && r.0.value.success ==>
      && r.0.value.credential == Some(Build(req, UuidFor(s.draws), s.workerId, now))
      && r.1.store == s.store[UuidFor(s.draws) := r.0.value.credential.value]
      && UuidFor(s.draws) !in s.store
      && r.1.events == PublishCredentialIssued(s.events, r.0.value.credential.value, now, f.publishOk, f.zaddOk)
    ensures r.1.workerId == s.workerId && s.draws <= r.1.draws <= s.draws + 1
  {
    if !f.checkOk then (Failure(IssueErrorPrefix + StoreErrorText(Unavailable)), s)
    else if TripleExists(s.store, req.holderName, req.credentialType, req.issuerName) then
      (Success(IssuanceResponse(false, "Credential already exists for " + req.holderName + " of type " + req.credentialType,
                                None, s.workerId)), s)
    else
      var id := UuidFor(s.draws);
      var drawn := s.(draws := s.draws + 1);
      var c := Build(req, id, s.workerId, now);
      match Credentials.Insert(s.store, c, f.insertOk)
      case Failure(e) => (Failure(IssueErrorPrefix + StoreErrorText(e)), drawn)
      case Success(store) =>
        var events := PublishCredentialIssued(s.events, c, now, f.publishOk, f.zaddOk);
        (Success(IssuanceResponse(true, "Credential issued and published by worker-" + s.workerId, Some(c), s.workerId)),
         drawn.(store := store, events := events))
  }

  /** Every row of the store carries an id drawn earlier. */
  ghost predicate IdsDrawn(s: IssuanceService) {
    forall id :: id in s.store ==> exists k :: 0 <= k < s.draws && id == UuidFor(k)
  }

  /** The exact outcome of an issuance with a reachable store and a fresh
      triple: success carrying the built credential, exactly one insert,
      exactly one publish. With ids only from the service's own draws, the
      insert never meets a duplicate id. */
  lemma {:induction false} IssueSucceeds(s: IssuanceService, req: CredentialRequest, now: nat, f: IssueFaults)
    requires IdsDrawn(s) && f.checkOk && f.insertOk
    requires !TripleExists(s.store, req.holderName, req.credentialType, req.issuerName)
    ensures var (resp, t) := IssueCredential(s, req, now, f);
      && resp.Success? && resp.value.success
      && resp.value.credential == Some(Build(req, UuidFor(s.draws), s.workerId, now))
      && t.store.Keys == s.store.Keys + {UuidFor(s.draws)}
      && IdsDrawn(t)
  {
    FreshIdAbsent(s);
    var t := IssueCredential(s, req, now, f).1;
    forall id | id in t.store ensures exists k :: 0 <= k < t.draws && id == UuidFor(k) {
      if id != UuidFor(s.draws) {
        var k :| 0 <= k < s.draws && id == UuidFor(k);
      } else {
        assert 0 <= s.draws < t.draws && id == UuidFor(s.draws);
      }
    }
  }

  /** The next id has not been used by any row. */
  lemma {:induction false} FreshIdAbsent(s: IssuanceService)
    requires IdsDrawn(s)
    ensures UuidFor(s.draws) !in s.store
  {
    if UuidFor(s.draws) in s.store {
      var k :| 0 <= k < s.draws && UuidFor(s.draws) == UuidFor(k);
      UuidForInjective(s.draws, k);
    }
  }

  /** The broker cannot turn an issuance into a failure: the response and
      the store do not depend on whether the publish or its fallback
      succeeded. */
  lemma {:induction false} BrokerFailureInvisible(s: IssuanceService, req: CredentialRequest, now: nat,
                                                  f: IssueFaults, publishOk: bool, zaddOk: bool)
    ensures var g := f.(publishOk := publishOk, zaddOk := zaddOk);
      && IssueCredential(s, req, now, f).0 == IssueCredential(s, req, now, g).0
      && IssueCredential(s, req, now, f).1.store == IssueCredential(s, req, now, g).1.store
  {
  }

  /** Two successive successful issuances get different ids, even for the
      same request at the same instant. */
  lemma {:induction false} SuccessiveIdsDiffer(s: IssuanceService, a: CredentialRequest, b: CredentialRequest,
                                               now: nat, later: nat, f: IssueFaults, g: IssueFaults)
    ensures var (r1, s1) := IssueCredential(s, a, now, f);
      var (r2, _) := IssueCredential(s1, b, later, g);
      r1.Success? && r1.value.success && r2.Success? && r2.value.success ==>
        r1.value.credential.value.id != r2.value.credential.value.id
  {
    var (r1, s1) := IssueCredential(s, a, now, f);
    var (r2, _) := IssueCredential(s1, b, later, g);
    if r1.Success? && r1.value.success && r2.Success? && r2.value.success {
      assert s1.draws == s.draws + 1;
      if UuidFor(s.draws) == UuidFor(s1.draws) {
        UuidForInjective(s.draws, s1.draws);
      }
    }
  }

  /** The service's metric report, or its fallback when a read throws. */
  datatype ServiceMetrics =
    | Report(workerId: string, events: EventMetrics, queues: QueueStats, timestamp: nat)
    | ReportError(workerId: string, error: string, timestamp: nat)

  /** getMetrics over the wrapper's two reads, given as what each returned
      or threw; the event metrics are read first. */
  function ServiceReport(workerId: string, events: Result<EventMetrics, string>, queues: Result<QueueStats, string>, now: nat)
    : (m: ServiceMetrics)
    ensures m.workerId == workerId && m.timestamp == now
    ensures m.Report? <==> events.Success? && queues.Success?
    ensures m.Report? ==> m.events == events.value && m.queues == queues.value
    ensures events.Failure? ==> m == ReportError(workerId, events.error, now)
    ensures events.Success? && queues.Failure? ==> m == ReportError(workerId, queues.error, now)
  {
    if events.Failure? then ReportError(workerId, events.error, now)
    else if queues.Failure? then ReportError(workerId, queues.error, now)
    else Report(workerId, events.value, queues.value, now)
  }

  /** getMetrics as composed: the wrapper's two reads catch their own
      errors independently, so the fallback is never taken; a broker outage
      during either read shows as zeros or as sizes of -1 rather than as an
      error, and the other read is reported as it came back. */
  function GetMetrics(s: IssuanceService, now: nat, metricsReadOk: bool, statsReadOk: bool): (m: ServiceMetrics)
    ensures m.Report? && m.workerId == s.workerId && m.timestamp == now
    ensures m.events == Maintenance.GetMetrics(s.events, metricsReadOk)
    ensures m.queues == GetQueueStats(s.events, statsReadOk)
    ensures !metricsReadOk ==> m.events == EventMetrics(0, 0, 0, 0)
    ensures !statsReadOk ==> m.queues == QueueStats(-1, -1, "error")
    ensures statsReadOk ==> m.queues.status == "healthy" && m.queues.deadLetterSize == |s.events.deadLetter|
  {
    ServiceReport(s.workerId, Success(Maintenance.GetMetrics(s.events, metricsReadOk)),
                  Success(GetQueueStats(s.events, statsReadOk)), now)
  }

  /** reprocessFailedEvents, given what the wrapper's replay returned or
      threw: its count, or 0. */
  function ReprocessOutcome(inner: Result<nat, string>): (n: nat)
    ensures inner.Success? ==> n == inner.value
    ensures inner.Failure? ==> n == 0
  {
    if inner.Success? then inner.value else 0
  }

  /** reprocessFailedEvents as composed with the wrapper's replay, which
      catches its own errors: the count it reports, with its effect. */
  function ReprocessFailedEvents(s: IssuanceService, now: nat, f: ReplayFaults): (r: (nat, IssuanceService))
    requires |f.publishOks| >= |s.events.deadLetter|
    ensures r.0 == ReprocessDeadLetterQueue(s.events, now, f).0
    ensures r.1 == s.(events := ReprocessDeadLetterQueue(s.events, now, f).1)
    ensures r.0 > 0 ==> r.1.events.deadLetter == []
    ensures r.1.store == s.store
  {
    var (count, events) := ReprocessDeadLetterQueue(s.events, now, f);
    (ReprocessOutcome(Success(count)), s.(events := events))
  }
}

=== FILE: maintenance.dfy ===
/** The operator-facing side of the issuing wrapper: the metric read-out, the
    queue statistics and the manual replay of the dead-letter list
    (getMetrics, getQueueStats, reprocessDeadLetterQueue). */
module Maintenance {
  import opened Credentials
  import opened Broker
  import opened Counters
  import opened Publisher

  datatype EventMetrics = EventMetrics(published: nat, failed: nat, retried: nat, deadLettered: nat)

  /** getMetrics: the four counters, a missing counter reading 0; all zeros
      when the broker cannot be read. */
  function GetMetrics(p: EventService, readOk: bool): (m: EventMetrics)
    ensures readOk ==> m.published == Get(p.counters, Count(Published))
    ensures readOk ==> m.failed == Get(p.counters, Count(Failed))
    ensures readOk ==> m.retried == Get(p.counters, Count(Retried))
    ensures readOk ==> m.deadLettered == Get(p.counters, Count(DeadLettered))
    ensures !readOk ==> m == EventMetrics(0, 0, 0, 0)
  {
    if readOk then
      EventMetrics(Get(p.counters, Count(Published)), Get(p.counters, Count(Failed)),
                   Get(p.counters, Count(Retried)), Get(p.counters, Count(DeadLettered)))
    else EventMetrics(0, 0, 0, 0)
  }

  /** Every issuance moves exactly one of the published and failed metrics,
      by one, and neither of the others. */
  lemma {:induction false} PublishMovesOneMetric(p: EventService, c: Credential, now: nat, publishOk: bool, zaddOk: bool)
    ensures var before := GetMetrics(p, true);
      var after := GetMetrics(PublishCredentialIssued(p, c, now, publishOk, zaddOk), true);
      && after.published + after.failed == before.published + before.failed + 1
      && (publishOk <==> after.published == before.published + 1)
      && after.retried == before.retried && after.deadLettered == before.deadLettered
  {
  }

  datatype QueueStats = QueueStats(retryQueueSize: int, deadLetterSize: int, status: string)

  /** getQueueStats: the sizes of the retry set and the dead-letter list,
      or -1 for both and status "error" when the broker cannot be read. */
  function GetQueueStats(p: EventService, readOk: bool): (s: QueueStats)
    ensures readOk ==> s.status == "healthy" && s.deadLetterSize == |p.deadLetter|
    ensures readOk && Distinct(p.retryQueue) ==> s.retryQueueSize == |Members(p.retryQueue)|
    ensures !readOk ==> s == QueueStats(-1, -1, "error")
    ensures s.retryQueueSize >= 0 <==> readOk
  {
    if readOk then QueueStats(ZCard(p.retryQueue), |p.deadLetter|, "healthy")
    else QueueStats(-1, -1, "error")
  }

  /** The broker outcomes of one replay: reading the list, one publish per
      entry in list order, and the two deletions. */
  datatype ReplayFaults = ReplayFaults(readOk: bool, publishOks: seq<bool>, delListOk: bool, delIndexOk: bool)

  /** The event published for a dead-letter entry: attempts reset, stamped
      with the replay instant. */
  function Reset(e: CredentialIssuedEvent, now: nat): (r: CredentialIssuedEvent)
    ensures r.retryCount == 0 && r.timestamp == now
    ensures r.eventId == e.eventId && r.credential == e.credential
    ensures r.maxRetries == e.maxRetries && r.correlationId == e.correlationId
  {
    e.(retryCount := 0, timestamp := now)
  }

  /** The events a replay publishes, in list order: one per parseable entry
      whose publish the broker accepted. */
  function Republish(entries: seq<Stored<DeadLetterEntry>>, oks: seq<bool>, now: nat): (out: seq<CredentialIssuedEvent>)
    requires |oks| >= |entries|
    decreases |entries|
    ensures |out| <= |entries|
  {
    if entries == [] then []
    else
      var head := if entries[0].Intact? && oks[0] then [Reset(entries[0].value.event, now)] else [];
      head + Republish(entries[1..], oks[1..], now)
  }

  /** An event is republished exactly when some parseable entry holding it
      was published successfully. */
  lemma {:induction false} RepublishMembers(entries: seq<Stored<DeadLetterEntry>>, oks: seq<bool>, now: nat, e: CredentialIssuedEvent)
    requires |oks| >= |entries|
    decreases |entries|
    ensures e in Republish(entries, oks, now) <==>
      exists i :: 0 <= i < |entries| && entries[i].Intact? && oks[i] && e == Reset(entries[i].value.event, now)
  {
    if entries != [] {
      RepublishMembers(entries[1..], oks[1..], now, e);
      if e in Republish(entries[1..], oks[1..], now) {
        var i :| 0 <= i < |entries[1..]| && entries[1..][i].Intact? && oks[1..][i]
                 && e == Reset(entries[1..][i].value.event, now);
        assert entries[i + 1] == entries[1..][i];
      }
      if exists i :: 0 <= i < |entries| && entries[i].Intact? && oks[i] && e == Reset(entries[i].value.event, now) {
        var i :| 0 <= i < |entries| && entries[i].Intact? && oks[i] && e == Reset(entries[i].value.event, now);
        if i > 0 {
          assert entries[1..][i - 1] == entries[i];
        }
      }
    }
  }

  /** With every entry parseable and every publish accepted, the replay
      republishes the whole list, entry by entry. */
  lemma {:induction false} RepublishAll(entries: seq<Stored<DeadLetterEntry>>, oks: seq<bool>, now: nat)
    requires |oks| >= |entries|
    requires forall i :: 0 <= i < |entries| ==> entries[i].Intact? && oks[i]
    decreases |entries|
    ensures |Republish(entries, oks, now)| == |entries|
    ensures forall i :: 0 <= i < |entries| ==> Republish(entries, oks, now)[i] == Reset(entries[i].value.event, now)
  {
    if entries != [] {
      RepublishAll(entries[1..], oks[1..], now);
    }
  }

  /** One unparseable entry or refused publish makes the replay republish
      fewer events than the list holds. */
  lemma {:induction false} RepublishShort(entries: seq<Stored<DeadLetterEntry>>, oks: seq<bool>, now: nat, k: nat)
    requires |oks| >= |entries|
    requires k < |entries| && !(entries[k].Intact? && oks[k])
    decreases |entries|
    ensures |Republish(entries, oks, now)| < |entries|
  {
    if k > 0 {
      RepublishShort(entries[1..], oks[1..], now, k - 1);
    }
  }

  /** reprocessDeadLetterQueue: republish every entry of the list; if any
      publish went through, delete the list and then the index. The count is
      returned only when both deletions succeed; any broker error after the
      read yields 0 with whatever was done so far left in place. */
  function ReprocessDeadLetterQueue(p: EventService, now: nat, f: ReplayFaults): (res: (nat, EventService))
    requires |f.publishOks| >= |p.deadLetter|
    ensures !f.readOk ==> res == (0, p)
    ensures f.readOk ==> res.1.channel == p.channel + Republish(p.deadLetter, f.publishOks, now)
    ensures res.1.retryQueue == p.retryQueue && res.1.counters == p.counters
    ensures res.0 > 0 ==> res.0 == |Republish(p.deadLetter, f.publishOks, now)| && res.1.deadLetter == [] && res.1.deadLetterIndex == map[]
    ensures f.readOk && f.delListOk && f.delIndexOk ==> res.0 == |Republish(p.deadLetter, f.publishOks, now)|
    ensures (f.readOk && |Republish(p.deadLetter, f.publishOks, now)| > 0 && f.delListOk) <==> res.1.deadLetter == [] && p.deadLetter != []
    ensures res.0 <= |p.deadLetter|
    ensures res.0 > 0 <==> f.readOk && |Republish(p.deadLetter, f.publishOks, now)| > 0 && f.delListOk && f.delIndexOk
    ensures !(f.readOk && |Republish(p.deadLetter, f.publishOks, now)| > 0 && f.delListOk) ==>
      res.1.deadLetter == p.deadLetter && res.1.deadLetterIndex == p.deadLetterIndex
    ensures f.readOk && |Republish(p.deadLetter, f.publishOks, now)| > 0 && f.delListOk ==>
      res.1.deadLetter == [] && res.1.deadLetterIndex == (if f.delIndexOk then map[] else p.deadLetterIndex)
  {
    if !f.readOk then (0, p)
    else
      var out := Republish(p.deadLetter, f.publishOks, now);
      var published := p.(channel := p.channel + out);
      if |out| == 0 then (0, published)
      else if !f.delListOk then (0, published)
      else if !f.delIndexOk then (0, published.(deadLetter := []))
      else (|out|, published.(deadLetter := [], deadLetterIndex := map[]))
  }

  /** A replay in which one entry fails while another goes through clears
      the whole list: the failed entry is gone from the dead-letter list and
      was not among the republished events counted. */
  lemma {:induction false} ReplayDropsFailedEntry(p: EventService, now: nat, f: ReplayFaults, k: nat)
    requires |f.publishOks| >= |p.deadLetter|
    requires f.readOk && f.delListOk && f.delIndexOk
    requires k < |p.deadLetter| && !(p.deadLetter[k].Intact? && f.publishOks[k])
    requires |Republish(p.deadLetter, f.publishOks, now)| > 0
    ensures var (count, r) := ReprocessDeadLetterQueue(p, now, f);
      && r.deadLetter == [] && 0 < count < |p.deadLetter|
  {
    RepublishShort(p.deadLetter, f.publishOks, now, k);
  }
}

=== FILE: pipeline.dfy ===
/** The two ends joined: what the issuing side puts on the channel is what
    the verifying side reads, and an applied event makes its credential
    verifiable. */
module Pipeline {
  import opened Wrappers
  import opened Credentials
  import opened Publisher
  import opened Maintenance
  import opened RetryScan
  import opened Subscriber
  import opened Issuance
  import opened Verification

  /** The message a published event becomes on the channel. */
  function Encode(e: CredentialIssuedEvent): (m: Message)
    ensures m.Intact? && m.value.eventType == CredentialIssued
    ensures m.value.eventId == e.eventId && m.value.credential == Some(e.credential)
    ensures m.value.correlationId == e.correlationId && m.value.retryCount == e.retryCount
  {
    Intact(WireEvent(CredentialIssued, e.eventId, e.timestamp, Some(e.credential), e.retryCount, e.correlationId))
  }

  /** After the subscriber applies an event, its credential verifies as
      valid, carrying the stored row: the event's credential when the id was
      new. */
  lemma {:induction false} AppliedIsVerifiable(s: EventSubscriber, msg: Message, now: nat, f: Faults,
                                               workerId: string, later: nat)
    requires Applies(s, msg, f)
    ensures var c := msg.value.credential.value;
      var v := VerifyCredential(Handle(s, msg, now, f).store, c.id, workerId, later, true);
      && v.Success? && v.value.success && v.value.isValid
      && (c.id !in s.store ==> v.value.credential == Some(c))
  {
    HandleCases(s, msg, now, f);
  }

  /** The whole path with every command succeeding: an issued credential is
      published once, and the subscriber that receives the message makes it
      verifiable with exactly the issued record. */
  lemma {:induction false} IssuedCredentialBecomesVerifiable(
    s: IssuanceService, req: CredentialRequest, now: nat,
    sub: EventSubscriber, f: Faults, workerId: string, later: nat)
    requires IdsDrawn(s)
    requires !TripleExists(s.store, req.holderName, req.credentialType, req.issuerName)
    requires f.lookupOk && f.insertOk
    ensures var (resp, t) := IssueCredential(s, req, now, IssueFaults(true, true, true, true));
      && resp.Success? && resp.value.success
      && var c := resp.value.credential.value;
      && t.events.channel == s.events.channel + [NewEvent(c, now)]
      && (NewEvent(c, now).eventId !in sub.processed && c.id !in sub.store ==>
            var v := VerifyCredential(Handle(sub, Encode(NewEvent(c, now)), now, f).store, c.id, workerId, later, true);
            v.Success? && v.value.isValid && v.value.credential == Some(c))
  {
    var flags := IssueFaults(true, true, true, true);
    IssueSucceeds(s, req, now, flags);
    var (resp, t) := IssueCredential(s, req, now, flags);
    var c := resp.value.credential.value;
    var msg := Encode(NewEvent(c, now));
    if NewEvent(c, now).eventId !in sub.processed && c.id !in sub.store {
      assert Applies(sub, msg, f);
      AppliedIsVerifiable(sub, msg, now, f, workerId, later);
    }
  }

  /** A retried copy carries the original's event id and credential, so once
      either copy is applied, delivering the other changes nothing while the
      id is cached. */
  lemma {:induction false} RetriedCopyDeduplicated(s: EventSubscriber, e: CredentialIssuedEvent, times: seq<nat>,
                                                   now: nat, f: Faults)
    requires e.eventId in s.processed
    ensures Handle(s, Encode(Lineage(e, times)), now, f) == s
  {
    LineageKeepsIdentity(e, times);
  }

  /** A dead-letter replay republishes under the original event id with the
      same credential; if the subscriber has evicted the id from its cache,
      the store lookup still keeps the stored row unchanged. */
  lemma {:induction false} ReplayedEventKeepsRow(s: EventSubscriber, e: CredentialIssuedEvent, replayAt: nat,
                                                 now: nat, f: Faults)
    requires e.credential.id in s.store
    ensures Handle(s, Encode(Reset(e, replayAt)), now, f).store == s.store
  {
    StoredCredentialIsFinal(s, Encode(Reset(e, replayAt)), now, f);
  }
}

=== FILE: publisher.dfy ===
/** The issuing side's reliability wrapper around publishing credential
    events (class EventService): immediate publish, a delay-ordered retry set
    with exponential backoff, dead-letter escalation, metric counters and a
    manual dead-letter replay.

    Every broker command is a step on an immutable `EventService` value.
    `now` is the wall clock in milliseconds; boolean arguments say whether
    the broker accepted a command. */
module Publisher {
  import opened Wrappers
  import opened Credentials
  import opened Broker
  import opened Counters

  const MaxRetries: nat := 5
  const BaseDelay: nat := 1000
  const MaxDelay: nat := 60000
  const RetryBatchLimit: nat := 10
  const MaxRetriesExceeded: string := "MAX_RETRIES_EXCEEDED"

  /** The event the issuing side publishes; its event type is always
      CREDENTIAL_ISSUED. */
  datatype CredentialIssuedEvent = CredentialIssuedEvent(
    eventId: string,
    timestamp: nat,
    credential: Credential,
    retryCount: nat,
    maxRetries: nat,
    correlationId: string)

  datatype DeadLetterEntry = DeadLetterEntry(event: CredentialIssuedEvent, deadLetteredAt: nat, reason: string)

  datatype Metric = Published | Failed | Retried | DeadLettered

  /** metrics:events:<metric>, metrics:events:total and the per-day
      metrics:events:<metric>:<day>. */
  datatype CounterKey = Count(metric: Metric) | Total | Daily(metric: Metric, day: nat)

  type RetryMember = Stored<CredentialIssuedEvent>

  /** The broker state the wrapper owns. `deadLetter` is newest first (LPUSH);
      `channel` is every event delivered to the channel, oldest first. */
  datatype EventService = EventService(
    retryQueue: seq<Scored<RetryMember>>,
    deadLetter: seq<Stored<DeadLetterEntry>>,
    deadLetterIndex: map<string, DeadLetterEntry>,
    counters: map<CounterKey, nat>,
    channel: seq<CredentialIssuedEvent>)

  /** The outcome of the broker commands one fetched member may issue: the
      publish, the re-enqueue that follows a failed publish, and the two
      writes of a dead-lettering. */
  datatype Attempt = Attempt(publishOk: bool, zaddOk: bool, lpushOk: bool, hsetOk: bool)

  function Pow2(n: nat): (r: nat)
    ensures r >= 1
  {
    if n == 0 then 1 else 2 * Pow2(n - 1)
  }

  /** Backoff before the next attempt of an event that has been tried
      `retryCount` times: min(1000 * 2^retryCount, 60000). */
  function Backoff(retryCount: nat): (d: nat)
    ensures BaseDelay <= d <= MaxDelay
    ensures d <= BaseDelay * Pow2(retryCount)
    ensures d == MaxDelay || d == BaseDelay * Pow2(retryCount)
  {
    var raw := BaseDelay * Pow2(retryCount);
    if raw < MaxDelay then raw else MaxDelay
  }

  /** Each further failure doubles the delay until it reaches the cap. */
  lemma {:induction false} BackoffDoubles(n: nat)
    ensures Backoff(n + 1) == if 2 * Backoff(n) < MaxDelay then 2 * Backoff(n) else MaxDelay
  {
    assert Pow2(n + 1) == 2 * Pow2(n);
  }

  lemma {:induction false} BackoffSchedule()
    ensures Backoff(0) == 1000 && Backoff(1) == 2000 && Backoff(2) == 4000
    ensures Backoff(3) == 8000 && Backoff(4) == 16000 && Backoff(5) == 32000
    ensures forall n: nat :: n >= 6 ==> Backoff(n) == MaxDelay
  {
    assert Pow2(5) == 32 by {
      assert Pow2(1) == 2 && Pow2(2) == 4 && Pow2(3) == 8 && Pow2(4) == 16;
    }
    forall n: nat | n >= 6 ensures Backoff(n) == MaxDelay {
      Pow2Grows(6, n);
      assert Pow2(6) == 64;
    }
  }

  lemma {:induction false} Pow2Grows(m: nat, n: nat)
    requires m <= n
    ensures Pow2(m) <= Pow2(n)
  {
    if m < n {
      Pow2Grows(m, n - 1);
    }
  }

  /** The event built for a freshly issued credential. */
  function NewEvent(c: Credential, now: nat): (e: CredentialIssuedEvent)
    ensures e.credential == c && e.timestamp == now
    ensures e.retryCount == 0 && e.maxRetries == MaxRetries
    ensures e.eventId != e.correlationId
  {
    assert ("evt_" + c.id)[0] == 'e' && ("corr_" + c.id)[0] == 'c';
    CredentialIssuedEvent(
      "evt_" + c.id + "_" + Digits(now), now, c, 0, MaxRetries,
      "corr_" + c.id + "_" + Digits(now))
  }

  /** The copy of `e` put in the retry set after a failed attempt. */
  function Successor(e: CredentialIssuedEvent, now: nat): (s: CredentialIssuedEvent)
    ensures s.retryCount == e.retryCount + 1 && s.timestamp == now
    ensures s.eventId == e.eventId && s.correlationId == e.correlationId
    ensures s.credential == e.credential && s.maxRetries == e.maxRetries
    ensures s != e
  {
    e.(retryCount := e.retryCount + 1, timestamp := now)
  }

  /** incrementMetric: the metric, the grand total and the metric's
      counter for the current day each go up by one. */
  function IncrementMetric(c: map<CounterKey, nat>, m: Metric, now: nat): (r: map<CounterKey, nat>)
    ensures Get(r, Count(m)) == Get(c, Count(m)) + 1
    ensures Get(r, Total) == Get(c, Total) + 1
    ensures Get(r, Daily(m, DayOf(now))) == Get(c, Daily(m, DayOf(now))) + 1
    ensures forall k :: k != Count(m) && k != Total && k != Daily(m, DayOf(now)) ==> Get(r, k) == Get(c, k)
    ensures Grows(c, r)
  {
    Incr(Incr(Incr(c, Count(m)), Total), Daily(m, DayOf(now)))
  }

  /** addToRetryQueue: a copy with one more attempt and a fresh timestamp,
      due after the backoff of the attempts made so far. A broker error is
      logged and the copy is lost. */
  function AddToRetryQueue(p: EventService, e: CredentialIssuedEvent, now: nat, zaddOk: bool): (r: EventService)
    ensures zaddOk ==> Scored(now + Backoff(e.retryCount), Intact(Successor(e, now))) in r.retryQueue
    ensures zaddOk ==> Members(r.retryQueue) == Members(p.retryQueue) + {Intact(Successor(e, now))}
    ensures zaddOk ==> forall x :: x in r.retryQueue <==>
      x == Scored(now + Backoff(e.retryCount), Intact(Successor(e, now)))
      || (x in p.retryQueue && x.member != Intact(Successor(e, now)))
    ensures !zaddOk ==> r == p
    ensures r.deadLetter == p.deadLetter && r.deadLetterIndex == p.deadLetterIndex
    ensures r.counters == p.counters && r.channel == p.channel
    ensures ValidZSet(p.retryQueue) ==> ValidZSet(r.retryQueue)
  {
    if zaddOk then
      p.(retryQueue := ZAdd(p.retryQueue, now + Backoff(e.retryCount), Intact(Successor(e, now))))
    else p
  }

  /** publishCredentialIssued: publish once; on failure schedule the first
      retry and count the failure. The caller never sees an error. */
  function PublishCredentialIssued(p: EventService, c: Credential, now: nat, publishOk: bool, zaddOk: bool): (r: EventService)
    ensures publishOk ==> r.channel == p.channel + [NewEvent(c, now)] && r.retryQueue == p.retryQueue
    ensures publishOk ==> Get(r.counters, Count(Published)) == Get(p.counters, Count(Published)) + 1
    ensures publishOk ==> Get(r.counters, Count(Failed)) == Get(p.counters, Count(Failed))
    ensures !publishOk ==> r.channel == p.channel
    ensures !publishOk ==> Get(r.counters, Count(Failed)) == Get(p.counters, Count(Failed)) + 1
    ensures !publishOk ==> Get(r.counters, Count(Published)) == Get(p.counters, Count(Published))
    ensures !publishOk && zaddOk ==>
      Scored(now + BaseDelay, Intact(Successor(NewEvent(c, now), now))) in r.retryQueue
    ensures !publishOk && zaddOk ==>
      Members(r.retryQueue) == Members(p.retryQueue) + {Intact(Successor(NewEvent(c, now), now))}
    ensures !publishOk && zaddOk ==> forall x :: x in r.retryQueue <==>
      x == Scored(now + BaseDelay, Intact(Successor(NewEvent(c, now), now)))
      || (x in p.retryQueue && x.member != Intact(Successor(NewEvent(c, now), now)))
    ensures !publishOk && !zaddOk ==> r.retryQueue == p.retryQueue
    ensures Get(r.counters, Count(Retried)) == Get(p.counters, Count(Retried))
    ensures Get(r.counters, Count(DeadLettered)) == Get(p.counters, Count(DeadLettered))
    ensures r.deadLetter == p.deadLetter && r.deadLetterIndex == p.deadLetterIndex
    ensures ValidZSet(p.retryQueue) ==> ValidZSet(r.retryQueue)
    ensures Grows(p.counters, r.counters)
  {
    var e := NewEvent(c, now);
    if publishOk then
      var counters := IncrementMetric(p.counters, Published, now);
      assert Get(counters, Count(Failed)) == Get(p.counters, Count(Failed));
      assert Get(counters, Count(Retried)) == Get(p.counters, Count(Retried));
      assert Get(counters, Count(DeadLettered)) == Get(p.counters, Count(DeadLettered));
      p.(channel := p.channel + [e], counters := counters)
    else
      assert Backoff(e.retryCount) == BaseDelay;
      FallBack(p, e, now, zaddOk)
  }

  /** The catch branch of a publish: enqueue the first retry copy, then
      count the failure. */
  function FallBack(p: EventService, e: CredentialIssuedEvent, now: nat, zaddOk: bool): (r: EventService)
    ensures r.channel == p.channel && r.deadLetter == p.deadLetter && r.deadLetterIndex == p.deadLetterIndex
    ensures r.retryQueue == AddToRetryQueue(p, e, now, zaddOk).retryQueue
    ensures zaddOk ==> Members(r.retryQueue) == Members(p.retryQueue) + {Intact(Successor(e, now))}
    ensures zaddOk ==> forall x :: x in r.retryQueue <==>
      x == Scored(now + Backoff(e.retryCount), Intact(Successor(e, now)))
      || (x in p.retryQueue && x.member != Intact(Successor(e, now)))
    ensures !zaddOk ==> r.retryQueue == p.retryQueue
    ensures ValidZSet(p.retryQueue) ==> ValidZSet(r.retryQueue)
    ensures Get(r.counters, Count(Failed)) == Get(p.counters, Count(Failed)) + 1
    ensures forall k :: k != Count(Failed) && k != Total && k != Daily(Failed, DayOf(now)) ==> Get(r.counters, k) == Get(p.counters, k)
    ensures Grows(p.counters, r.counters)
  {
    var q := AddToRetryQueue(p, e, now, zaddOk);
    q.(counters := IncrementMetric(q.counters, Failed, now))
  }

  /** A failed publish whose fallback enqueue also fails loses the event:
      it is on neither the channel nor the retry set, and only the failure
      counter records it. */
  lemma {:induction false} PublishLost(p: EventService, c: Credential, now: nat)
    requires forall e :: e in p.channel ==> e.credential != c
    requires forall m :: m in Members(p.retryQueue) && m.Intact? ==> m.value.credential != c
    ensures var r := PublishCredentialIssued(p, c, now, false, false);
      && (forall e :: e in r.channel ==> e.credential != c)
      && (forall m :: m in Members(r.retryQueue) && m.Intact? ==> m.value.credential != c)
      && Get(r.counters, Count(Failed)) == Get(p.counters, Count(Failed)) + 1
  {
  }

  /** moveToDeadLetterQueue: push a dead-letter entry, count it, index it by
      event id. A failed push is logged and nothing is written; a failed
      index write leaves the pushed and counted entry unindexed. */
  function MoveToDeadLetterQueue(p: EventService, e: CredentialIssuedEvent, now: nat, lpushOk: bool, hsetOk: bool): (r: EventService)
    ensures lpushOk ==> r.deadLetter == [Intact(DeadLetterEntry(e, now, MaxRetriesExceeded))] + p.deadLetter
    ensures lpushOk ==> Get(r.counters, Count(DeadLettered)) == Get(p.counters, Count(DeadLettered)) + 1
    ensures lpushOk ==> Get(r.counters, Total) == Get(p.counters, Total) + 1
    ensures lpushOk ==> Get(r.counters, Daily(DeadLettered, DayOf(now))) == Get(p.counters, Daily(DeadLettered, DayOf(now))) + 1
    ensures lpushOk ==> forall k :: k != Count(DeadLettered) && k != Total && k != Daily(DeadLettered, DayOf(now)) ==>
      Get(r.counters, k) == Get(p.counters, k)
    ensures Grows(p.counters, r.counters)
    ensures lpushOk && hsetOk ==>
      r.deadLetterIndex == p.deadLetterIndex[e.eventId := DeadLetterEntry(e, now, MaxRetriesExceeded)]
    ensures !(lpushOk && hsetOk) ==> r.deadLetterIndex == p.deadLetterIndex
    ensures !lpushOk ==> r == p
    ensures r.retryQueue == p.retryQueue && r.channel == p.channel
  {
    if !lpushOk then p
    else
      var entry := DeadLetterEntry(e, now, MaxRetriesExceeded);
      var pushed := p.(deadLetter := [Intact(entry)] + p.deadLetter,
                       counters := IncrementMetric(p.counters, DeadLettered, now));
      if hsetOk then pushed.(deadLetterIndex := p.deadLetterIndex[e.eventId := entry]) else pushed
  }

  /** The members one scan fetches: due (score <= now), lowest score first,
      at most ten. */
  function DueBatch(q: seq<Scored<RetryMember>>, now: nat): (b: seq<RetryMember>)
    ensures |b| <= RetryBatchLimit && |b| <= |q|
    ensures forall i :: 0 <= i < |b| ==> b[i] == q[i].member && q[i].score <= now
    ensures Sorted(q) && |b| < RetryBatchLimit ==> forall i :: |b| <= i < |q| ==> q[i].score > now
  {
    RangeByScore(q, now, RetryBatchLimit)
  }

  /** One fetched member of a scan (the body of the scan's loop). */
  function RetryEntry(p: EventService, m: RetryMember, now: nat, a: Attempt): EventService
  {
    match m
    case Corrupt(_) => p.(retryQueue := ZRem(p.retryQueue, m))
    case Intact(e) =>
      if e.retryCount >= e.maxRetries then
        var d := MoveToDeadLetterQueue(p, e, now, a.lpushOk, a.hsetOk);
        d.(retryQueue := ZRem(d.retryQueue, m))
      else if a.publishOk then
        p.(channel := p.channel + [e],
           counters := IncrementMetric(p.counters, Retried, now),
           retryQueue := ZRem(p.retryQueue, m))
      else
        AddToRetryQueue(p, e, now, a.zaddOk)
  }

  /** The outcomes of one fetched member. An unparseable member is
      dropped. An exhausted event is dead-lettered and dropped, never
      published; when the dead-letter push fails it is dropped all the
      same. Otherwise it is published: on success it is counted and
      dropped; on failure a successor is enqueued and the member itself stays
      in the set. */
  lemma {:induction false} RetryEntryCases(p: EventService, m: RetryMember, now: nat, a: Attempt)
    ensures m.Corrupt? ==> RetryEntry(p, m, now, a) == p.(retryQueue := ZRem(p.retryQueue, m))
    ensures m.Intact? && m.value.retryCount >= m.value.maxRetries ==>
      && RetryEntry(p, m, now, a).channel == p.channel
      && m !in Members(RetryEntry(p, m, now, a).retryQueue)
    ensures m.Intact? && m.value.retryCount >= m.value.maxRetries && a.lpushOk ==>
      && RetryEntry(p, m, now, a).deadLetter == [Intact(DeadLetterEntry(m.value, now, MaxRetriesExceeded))] + p.deadLetter
      && Get(RetryEntry(p, m, now, a).counters, Count(DeadLettered)) == Get(p.counters, Count(DeadLettered)) + 1
    ensures m.Intact? && m.value.retryCount >= m.value.maxRetries && a.lpushOk && a.hsetOk ==>
      && m.value.eventId in RetryEntry(p, m, now, a).deadLetterIndex
      && RetryEntry(p, m, now, a).deadLetterIndex[m.value.eventId] == DeadLetterEntry(m.value, now, MaxRetriesExceeded)
    ensures m.Intact? && m.value.retryCount >= m.value.maxRetries && !a.lpushOk ==>
      && RetryEntry(p, m, now, a).deadLetter == p.deadLetter
      && RetryEntry(p, m, now, a).counters == p.counters
    ensures m.Intact? && m.value.retryCount < m.value.maxRetries && a.publishOk ==>
      && RetryEntry(p, m, now, a).channel == p.channel + [m.value]
      && m !in Members(RetryEntry(p, m, now, a).retryQueue)
      && Get(RetryEntry(p, m, now, a).counters, Count(Retried)) == Get(p.counters, Count(Retried)) + 1
    ensures m.Intact? && m.value.retryCount < m.value.maxRetries && !a.publishOk ==>
      && RetryEntry(p, m, now, a).channel == p.channel && RetryEntry(p, m, now, a).counters == p.counters
      && (m in Members(p.retryQueue) ==> m in Members(RetryEntry(p, m, now, a).retryQueue))
    ensures m.Intact? && m.value.retryCount < m.value.maxRetries && !a.publishOk && a.zaddOk ==>
      Scored(now + Backoff(m.value.retryCount), Intact(Successor(m.value, now))) in RetryEntry(p, m, now, a).retryQueue
  {
    match m
    case Corrupt(_) =>
    case Intact(e) =>
      if e.retryCount < e.maxRetries && !a.publishOk && m in Members(p.retryQueue) {
        assert m != Intact(Successor(e, now));
      }
  }

  /** The members of a scan, in fetch order, each with its own attempt. */
  function RetryAll(p: EventService, batch: seq<RetryMember>, now: nat, attempts: seq<Attempt>): (r: EventService)
    requires |attempts| >= |batch|
    decreases |batch|
  {
    if batch == [] then p
    else RetryAll(RetryEntry(p, batch[0], now, attempts[0]), batch[1..], now, attempts[1..])
  }
}

=== FILE: retry_scan.dfy ===
/** Properties of the retry scan (processRetryQueue): what one scan may
    publish, dead-letter, count and remove, and the invariants of the retry
    set it keeps. */
module RetryScan {
  import opened Credentials
  import opened Broker
  import opened Counters
  import opened Publisher

  /** The channel only grows at its end and the dead-letter list only at its
      head. */
  predicate Extends(p: EventService, r: EventService) {
    && |p.channel| <= |r.channel| && r.channel[..|p.channel|] == p.channel
    && |p.deadLetter| <= |r.deadLetter| && r.deadLetter[|r.deadLetter| - |p.deadLetter|..] == p.deadLetter
  }

  /** Every event in the retry set has been attempted at most `maxRetries`
      times. */
  ghost predicate LineageBounded(q: seq<Scored<RetryMember>>) {
    forall e :: e in q && e.member.Intact? ==> e.member.value.retryCount <= e.member.value.maxRetries
  }

  /** Events published between `p` and `r`. */
  function NewlyPublished(p: EventService, r: EventService): seq<CredentialIssuedEvent>
    requires |p.channel| <= |r.channel|
  {
    r.channel[|p.channel|..]
  }

  /** Dead-letter entries pushed between `p` and `r`, newest first. */
  function NewlyDeadLettered(p: EventService, r: EventService): seq<Stored<DeadLetterEntry>>
    requires |p.deadLetter| <= |r.deadLetter|
  {
    r.deadLetter[..|r.deadLetter| - |p.deadLetter|]
  }

  /** A fetched member that left the retry set went somewhere: it was
      unparseable, or it was published, or it was dead-lettered. */
  ghost predicate Settled(x: RetryMember, p: EventService, r: EventService, now: nat)
    requires Extends(p, r)
  {
    || x.Corrupt?
    || (x.value.retryCount < x.value.maxRetries && x.value in NewlyPublished(p, r))
    || (x.value.retryCount >= x.value.maxRetries
        && Intact(DeadLetterEntry(x.value, now, MaxRetriesExceeded)) in NewlyDeadLettered(p, r))
  }

  lemma SettledExtends(x: RetryMember, p: EventService, q: EventService, r: EventService, now: nat)
    requires Extends(p, q) && Extends(q, r) && Extends(p, r)
    requires Settled(x, p, q, now) || Settled(x, q, r, now)
    ensures Settled(x, p, r, now)
  {
    if x.Intact? && x.value.retryCount < x.value.maxRetries {
      if x.value in NewlyPublished(p, q) {
        var i :| |p.channel| <= i < |q.channel| && q.channel[i] == x.value;
        assert r.channel[i] == x.value;
      } else {
        var i :| |q.channel| <= i < |r.channel| && r.channel[i] == x.value;
      }
    } else if x.Intact? {
      var d := Intact(DeadLetterEntry(x.value, now, MaxRetriesExceeded));
      if d in NewlyDeadLettered(p, q) {
        var i :| 0 <= i < |q.deadLetter| - |p.deadLetter| && q.deadLetter[i] == d;
        var k := |r.deadLetter| - |q.deadLetter|;
        assert r.deadLetter[k + i] == d;
      } else {
        var i :| 0 <= i < |r.deadLetter| - |q.deadLetter| && r.deadLetter[i] == d;
      }
    }
  }

  lemma ExtendsTransitive(p: EventService, q: EventService, r: EventService)
    requires Extends(p, q) && Extends(q, r)
    ensures Extends(p, r)
  {
    assert r.channel[..|p.channel|] == r.channel[..|q.channel|][..|p.channel|];
    var a, b := |r.deadLetter| - |q.deadLetter|, |q.deadLetter| - |p.deadLetter|;
    assert r.deadLetter[a + b..] == r.deadLetter[a..][b..];
  }

  /** What one member does to the channel, the dead-letter list and the
      counters. */
  lemma {:induction false} RetryEntryAccounting(p: EventService, m: RetryMember, now: nat, a: Attempt)
    ensures var r := RetryEntry(p, m, now, a);
      && Extends(p, r)
      && Get(r.counters, Count(Published)) == Get(p.counters, Count(Published))
      && Get(r.counters, Count(Failed)) == Get(p.counters, Count(Failed))
      && Get(r.counters, Count(Retried)) + |p.channel| == Get(p.counters, Count(Retried)) + |r.channel|
      && Get(r.counters, Count(DeadLettered)) + |p.deadLetter| == Get(p.counters, Count(DeadLettered)) + |r.deadLetter|
      && NewlyPublished(p, r) ==
           (if m.Intact? && m.value.retryCount < m.value.maxRetries && a.publishOk then [m.value] else [])
      && NewlyDeadLettered(p, r) ==
           (if m.Intact? && m.value.retryCount >= m.value.maxRetries && a.lpushOk
            then [Intact(DeadLetterEntry(m.value, now, MaxRetriesExceeded))] else [])
      && Grows(p.counters, r.counters)
      && (m in Members(p.retryQueue) && m !in Members(r.retryQueue) && a.lpushOk ==> Settled(m, p, r, now))
  {
    var r := RetryEntry(p, m, now, a);
    RetryEntryCases(p, m, now, a);
    match m
    case Corrupt(_) =>
      assert r.channel == p.channel && r.deadLetter == p.deadLetter && r.counters == p.counters;
    case Intact(e) =>
      if e.retryCount >= e.maxRetries && !a.lpushOk {
        assert r.channel == p.channel && r.deadLetter == p.deadLetter && r.counters == p.counters;
      } else if e.retryCount >= e.maxRetries {
        var d := Intact(DeadLetterEntry(e, now, MaxRetriesExceeded));
        assert r.channel == p.channel;
        assert r.deadLetter == [d] + p.deadLetter;
        assert NewlyDeadLettered(p, r) == [d];
        assert r.deadLetter[1..] == p.deadLetter;
        assert r.counters == IncrementMetric(p.counters, DeadLettered, now);
      } else if a.publishOk {
        assert r.channel == p.channel + [e];
        assert NewlyPublished(p, r) == [e];
        assert r.deadLetter == p.deadLetter;
        assert r.counters == IncrementMetric(p.counters, Retried, now);
      } else {
        assert r.channel == p.channel && r.deadLetter == p.deadLetter && r.counters == p.counters;
      }
  }

  /** Where one member's processing puts things: on the channel only when
      a retry succeeds, on the dead-letter list only when exhausted. */
  lemma {:induction false} RetryEntryEffects(p: EventService, m: RetryMember, now: nat, a: Attempt)
    ensures var r := RetryEntry(p, m, now, a);
      && Extends(p, r)
      && NewlyPublished(p, r) == RetryOutcome(m, a)
      && NewlyDeadLettered(p, r) == DeadOutcome(m, a, now)
  {
    RetryEntryAccounting(p, m, now, a);
  }

  lemma ConcatNewlyPublished(p: EventService, q: EventService, r: EventService)
    requires Extends(p, q) && Extends(q, r) && Extends(p, r)
    ensures NewlyPublished(p, r) == NewlyPublished(p, q) + NewlyPublished(q, r)
  {
  }

  lemma ConcatNewlyDeadLettered(p: EventService, q: EventService, r: EventService)
    requires Extends(p, q) && Extends(q, r) && Extends(p, r)
    ensures NewlyDeadLettered(p, r) == NewlyDeadLettered(q, r) + NewlyDeadLettered(p, q)
  {
    var a, b := |r.deadLetter| - |q.deadLetter|, |q.deadLetter| - |p.deadLetter|;
    assert r.deadLetter[a..] == q.deadLetter;
    assert r.deadLetter[..a + b] == r.deadLetter[..a] + r.deadLetter[a..a + b];
  }

  /** What a whole scan does to the counters: the publish and failure
      counters do not move, the retry counter moves with the channel and the
      dead-letter counter with the dead-letter list. */
  lemma {:induction false} RetryAllCounters(p: EventService, batch: seq<RetryMember>, now: nat, attempts: seq<Attempt>)
    requires |attempts| >= |batch|
    decreases |batch|
    ensures var r := RetryAll(p, batch, now, attempts);
      && Extends(p, r)
      && Get(r.counters, Count(Published)) == Get(p.counters, Count(Published))
      && Get(r.counters, Count(Failed)) == Get(p.counters, Count(Failed))
      && Get(r.counters, Count(Retried)) + |p.channel| == Get(p.counters, Count(Retried)) + |r.channel|
      && Get(r.counters, Count(DeadLettered)) + |p.deadLetter| == Get(p.counters, Count(DeadLettered)) + |r.deadLetter|
      && Grows(p.counters, r.counters)
  {
    if batch != [] {
      var p1 := RetryEntry(p, batch[0], now, attempts[0]);
      var r := RetryAll(p1, batch[1..], now, attempts[1..]);
      RetryEntryAccounting(p, batch[0], now, attempts[0]);
      RetryAllCounters(p1, batch[1..], now, attempts[1..]);
      ExtendsTransitive(p, p1, r);
      GrowsTransitive(p.counters, p1.counters, r.counters);
    }
  }

  /** What one fetched member puts on the channel. */
  function RetryOutcome(m: RetryMember, a: Attempt): (out: seq<CredentialIssuedEvent>)
    ensures |out| <= 1
  {
    if m.Intact? && m.value.retryCount < m.value.maxRetries && a.publishOk then [m.value] else []
  }

  /** What one fetched member pushes on the dead-letter list. */
  function DeadOutcome(m: RetryMember, a: Attempt, now: nat): (out: seq<Stored<DeadLetterEntry>>)
    ensures |out| <= 1
  {
    if m.Intact? && m.value.retryCount >= m.value.maxRetries && a.lpushOk
    then [Intact(DeadLetterEntry(m.value, now, MaxRetriesExceeded))] else []
  }

  /** The events a scan publishes, in fetch order. */
  function Republished(batch: seq<RetryMember>, attempts: seq<Attempt>): (out: seq<CredentialIssuedEvent>)
    requires |attempts| >= |batch|
    decreases |batch|
    ensures |out| <= |batch|
  {
    if batch == [] then [] else RetryOutcome(batch[0], attempts[0]) + Republished(batch[1..], attempts[1..])
  }

  /** The entries a scan pushes on the dead-letter list, newest first. */
  function Exhausted(batch: seq<RetryMember>, attempts: seq<Attempt>, now: nat): (out: seq<Stored<DeadLetterEntry>>)
    requires |attempts| >= |batch|
    decreases |batch|
    ensures |out| <= |batch|
  {
    if batch == [] then [] else Exhausted(batch[1..], attempts[1..], now) + DeadOutcome(batch[0], attempts[0], now)
  }

  /** A scan appends to the channel exactly its successful retries, in fetch
      order, and pushes on the dead-letter list exactly its exhausted events
      whose push the broker accepted. */
  lemma {:induction false} RetryAllOutputs(p: EventService, batch: seq<RetryMember>, now: nat, attempts: seq<Attempt>)
    requires |attempts| >= |batch|
    decreases |batch|
    ensures Extends(p, RetryAll(p, batch, now, attempts))
    ensures NewlyPublished(p, RetryAll(p, batch, now, attempts)) == Republished(batch, attempts)
    ensures NewlyDeadLettered(p, RetryAll(p, batch, now, attempts)) == Exhausted(batch, attempts, now)
  {
    if batch != [] {
      var p1 := RetryEntry(p, batch[0], now, attempts[0]);
      var r := RetryAll(p1, batch[1..], now, attempts[1..]);
      assert r == RetryAll(p, batch, now, attempts);
      RetryEntryEffects(p, batch[0], now, attempts[0]);
      RetryAllOutputs(p1, batch[1..], now, attempts[1..]);
      ExtendsTransitive(p, p1, r);
      ConcatNewlyPublished(p, p1, r);
      ConcatNewlyDeadLettered(p, p1, r);
    }
  }

  /** Each of `published` is a fetched event with attempts left. */
  ghost predicate RetriesOf(published: seq<CredentialIssuedEvent>, batch: seq<RetryMember>) {
    forall e :: e in published ==> Intact(e) in batch && e.retryCount < e.maxRetries
  }

  /** Each of `entries` is a fetched, exhausted event stamped with `now` and
      the fixed reason. */
  ghost predicate ExhaustedOf(entries: seq<Stored<DeadLetterEntry>>, batch: seq<RetryMember>, now: nat) {
    forall d :: d in entries ==>
      && d.Intact? && d.value.reason == MaxRetriesExceeded && d.value.deadLetteredAt == now
      && Intact(d.value.event) in batch && d.value.event.retryCount >= d.value.event.maxRetries
  }

  /** Every publish of a scan is a retry of a fetched, unexhausted event. */
  lemma {:induction false} RepublishedAreRetries(batch: seq<RetryMember>, attempts: seq<Attempt>)
    requires |attempts| >= |batch|
    decreases |batch|
    ensures RetriesOf(Republished(batch, attempts), batch)
  {
    if batch != [] {
      RepublishedAreRetries(batch[1..], attempts[1..]);
      assert forall y :: y in batch[1..] ==> y in batch;
    }
  }

  /** Every dead-letter entry of a scan is a fetched, exhausted event. */
  lemma {:induction false} ExhaustedAreFetched(batch: seq<RetryMember>, attempts: seq<Attempt>, now: nat)
    requires |attempts| >= |batch|
    decreases |batch|
    ensures ExhaustedOf(Exhausted(batch, attempts, now), batch, now)
  {
    if batch != [] {
      ExhaustedAreFetched(batch[1..], attempts[1..], now);
      assert forall y :: y in batch[1..] ==> y in batch;
    }
  }

  /** While the broker accepts dead-letter pushes, nothing leaves the retry
      set silently: a member that is gone after a scan was fetched by it and
      was unparseable, published or dead-lettered. */
  lemma {:induction false} RetryAllSettles(p: EventService, batch: seq<RetryMember>, now: nat, attempts: seq<Attempt>)
    requires |attempts| >= |batch|
    decreases |batch|
    ensures Extends(p, RetryAll(p, batch, now, attempts))
    ensures PushesLand(attempts) ==>
      var r := RetryAll(p, batch, now, attempts);
      forall x :: x in Members(p.retryQueue) && x !in Members(r.retryQueue) ==> x in batch && Settled(x, p, r, now)
  {
    if batch != [] {
      var p1 := RetryEntry(p, batch[0], now, attempts[0]);
      var r := RetryAll(p1, batch[1..], now, attempts[1..]);
      EntrySettles(p, batch[0], now, attempts[0]);
      RetryAllSettles(p1, batch[1..], now, attempts[1..]);
      ExtendsTransitive(p, p1, r);
      if PushesLand(attempts) {
        PushesLandInTail(attempts);
        RetryEntryKeepsAll(p, batch[0], now, attempts[0]);
        SettlesThrough(p, p1, r, batch, now);
      }
    }
  }

  /** Every dead-letter push of a scan lands. */
  predicate PushesLand(attempts: seq<Attempt>) {
    forall i :: 0 <= i < |attempts| ==> attempts[i].lpushOk
  }

  lemma {:induction false} PushesLandInTail(attempts: seq<Attempt>)
    requires attempts != [] && PushesLand(attempts)
    ensures attempts[0].lpushOk
    ensures PushesLand(attempts[1..])
  {
    forall i | 0 <= i < |attempts[1..]| ensures attempts[1..][i].lpushOk {
      assert attempts[1..][i] == attempts[i + 1];
    }
  }

  /** One member's processing keeps every other member in the set. */
  lemma {:induction false} RetryEntryKeepsAll(p: EventService, m: RetryMember, now: nat, a: Attempt)
    ensures forall x :: x in Members(p.retryQueue) && x != m ==> x in Members(RetryEntry(p, m, now, a).retryQueue)
  {
    forall x | x in Members(p.retryQueue) && x != m ensures x in Members(RetryEntry(p, m, now, a).retryQueue) {
      RetryEntryKeepsOthers(p, m, now, a, x);
    }
  }

  /** Settling composes over one member followed by the rest of a batch. */
  lemma {:induction false} SettlesThrough(p: EventService, p1: EventService, r: EventService,
                                          batch: seq<RetryMember>, now: nat)
    requires batch != []
    requires Extends(p, p1) && Extends(p1, r) && Extends(p, r)
    requires forall x :: x in Members(p.retryQueue) && x != batch[0] ==> x in Members(p1.retryQueue)
    requires batch[0] in Members(p.retryQueue) && batch[0] !in Members(p1.retryQueue) ==> Settled(batch[0], p, p1, now)
    requires forall x :: x in Members(p1.retryQueue) && x !in Members(r.retryQueue) ==> x in batch[1..] && Settled(x, p1, r, now)
    ensures forall x :: x in Members(p.retryQueue) && x !in Members(r.retryQueue) ==> x in batch && Settled(x, p, r, now)
  {
    forall x | x in Members(p.retryQueue) && x !in Members(r.retryQueue)
      ensures x in batch && Settled(x, p, r, now)
    {
      assert batch == [batch[0]] + batch[1..];
      SettledExtends(x, p, p1, r, now);
    }
  }

  /** One member's processing extends the outputs, and settles the member
      if it leaves the set while dead-letter pushes land. */
  lemma {:induction false} EntrySettles(p: EventService, m: RetryMember, now: nat, a: Attempt)
    ensures Extends(p, RetryEntry(p, m, now, a))
    ensures var r := RetryEntry(p, m, now, a);
      m in Members(p.retryQueue) && m !in Members(r.retryQueue) && a.lpushOk ==> Settled(m, p, r, now)
  {
    RetryEntryAccounting(p, m, now, a);
  }

  /** When the dead-letter push fails, an exhausted event leaves the retry
      set without reaching the channel, the dead-letter list or its index:
      it is lost. */
  lemma {:induction false} DeadLetterPushLost(p: EventService, m: RetryMember, now: nat, a: Attempt)
    requires m.Intact? && m.value.retryCount >= m.value.maxRetries && !a.lpushOk
    requires m in Members(p.retryQueue)
    ensures var r := RetryEntry(p, m, now, a);
      && m !in Members(r.retryQueue)
      && r.channel == p.channel && r.deadLetter == p.deadLetter
      && r.deadLetterIndex == p.deadLetterIndex && r.counters == p.counters
  {
    RetryEntryCases(p, m, now, a);
  }

  /** One member's processing removes no other member from the set. */
  lemma {:induction false} RetryEntryKeepsOthers(p: EventService, m: RetryMember, now: nat, a: Attempt, x: RetryMember)
    requires x != m && x in Members(p.retryQueue)
    ensures x in Members(RetryEntry(p, m, now, a).retryQueue)
  {
  }

  /** A scan leaves every member it did not fetch in place. */
  lemma {:induction false} RetryAllKeeps(p: EventService, batch: seq<RetryMember>, now: nat, attempts: seq<Attempt>)
    requires |attempts| >= |batch|
    decreases |batch|
    ensures forall x :: x in Members(p.retryQueue) && x !in batch ==> x in Members(RetryAll(p, batch, now, attempts).retryQueue)
  {
    if batch != [] {
      var p1 := RetryEntry(p, batch[0], now, attempts[0]);
      forall x | x in Members(p.retryQueue) && x != batch[0] ensures x in Members(p1.retryQueue) {
        RetryEntryKeepsOthers(p, batch[0], now, attempts[0], x);
      }
      RetryAllKeeps(p1, batch[1..], now, attempts[1..]);
      assert forall x :: x in batch[1..] ==> x in batch;
    }
  }

  /** A scan keeps the retry set a valid sorted set and keeps every event
      within its retry budget. */
  lemma {:induction false} RetryAllQueue(p: EventService, batch: seq<RetryMember>, now: nat, attempts: seq<Attempt>)
    requires |attempts| >= |batch|
    decreases |batch|
    ensures ValidZSet(p.retryQueue) && LineageBounded(p.retryQueue) ==>
      var r := RetryAll(p, batch, now, attempts);
      ValidZSet(r.retryQueue) && LineageBounded(r.retryQueue)
  {
    if batch != [] && ValidZSet(p.retryQueue) && LineageBounded(p.retryQueue) {
      var p1 := RetryEntry(p, batch[0], now, attempts[0]);
      var m := batch[0];
      if m.Intact? && m.value.retryCount < m.value.maxRetries && !attempts[0].publishOk && attempts[0].zaddOk {
        var s := Scored(now + Backoff(m.value.retryCount), Intact(Successor(m.value, now)));
        assert forall e :: e in p1.retryQueue ==> e == s || e in p.retryQueue;
      }
      assert LineageBounded(p1.retryQueue);
      RetryAllQueue(p1, batch[1..], now, attempts[1..]);
    }
  }

  /** Every event in the retry set is due strictly after its own
      timestamp: each copy is scheduled a positive backoff after it is
      stamped. */
  ghost predicate ScheduledAhead(q: seq<Scored<RetryMember>>) {
    forall e :: e in q && e.member.Intact? ==> e.member.value.timestamp < e.score
  }

  /** A fetched member that a scan drops from the set: unparseable,
      exhausted, or published. */
  predicate Leaves(m: RetryMember, a: Attempt) {
    m.Corrupt? || m.value.retryCount >= m.value.maxRetries || a.publishOk
  }

  /** No member is fetched twice. */
  predicate DistinctBatch(batch: seq<RetryMember>) {
    forall i, j :: 0 <= i < j < |batch| ==> batch[i] != batch[j]
  }

  /** Every fetched event was stamped before `now`, so none of them is a
      copy made during this scan. */
  predicate StampedBefore(batch: seq<RetryMember>, now: nat) {
    forall i :: 0 <= i < |batch| && batch[i].Intact? ==> batch[i].value.timestamp < now
  }

  /** The scan's effect on the set `r` (from `q`) for one fetched member
      `m` with attempt `a`: a member that leaves is gone; one whose publish
      failed stays, and when its ZADD landed its successor is in the set,
      due after the backoff of the attempts made so far. */
  predicate Drained(q: seq<Scored<RetryMember>>, r: seq<Scored<RetryMember>>, m: RetryMember, a: Attempt, now: nat) {
    && (Leaves(m, a) ==> m !in Members(r))
    && (!Leaves(m, a) && m in Members(q) ==> m in Members(r))
    && (!Leaves(m, a) && a.zaddOk ==> Scored(now + Backoff(m.value.retryCount), Intact(Successor(m.value, now))) in r)
  }

  /** The due batch of a valid set whose copies are scheduled ahead holds
      no member twice and no copy stamped at `now`. */
  lemma {:induction false} DueBatchFetchedBefore(q: seq<Scored<RetryMember>>, now: nat)
    requires ValidZSet(q) && ScheduledAhead(q)
    ensures DistinctBatch(DueBatch(q, now)) && StampedBefore(DueBatch(q, now), now)
  {
    var b := DueBatch(q, now);
    forall i | 0 <= i < |b| && b[i].Intact? ensures b[i].value.timestamp < now {
      assert q[i] in q;
    }
  }

  lemma {:induction false} BatchTail(batch: seq<RetryMember>, now: nat)
    requires batch != [] && DistinctBatch(batch) && StampedBefore(batch, now)
    ensures DistinctBatch(batch[1..]) && StampedBefore(batch[1..], now)
    ensures batch[0] !in batch[1..]
  {
    var t := batch[1..];
    forall i, j | 0 <= i < j < |t| ensures t[i] != t[j] {
      assert t[i] == batch[i + 1] && t[j] == batch[j + 1];
    }
    forall i | 0 <= i < |t| && t[i].Intact? ensures t[i].value.timestamp < now {
      assert t[i] == batch[i + 1];
    }
  }

  /** One member's processing adds nothing but that member's successor. */
  lemma {:induction false} RetryEntryAdds(p: EventService, m: RetryMember, now: nat, a: Attempt)
    ensures forall e :: e in RetryEntry(p, m, now, a).retryQueue ==>
      e in p.retryQueue || (m.Intact? && e == Scored(now + Backoff(m.value.retryCount), Intact(Successor(m.value, now))))
  {
  }

  /** What one member's processing does to the member itself. */
  lemma {:induction false} EntryDrains(p: EventService, m: RetryMember, now: nat, a: Attempt)
    ensures Drained(p.retryQueue, RetryEntry(p, m, now, a).retryQueue, m, a, now)
  {
    RetryEntryCases(p, m, now, a);
  }

  /** One member's processing keeps a successor copy scheduled at `now`
      when the member was not itself stamped at `now`. */
  lemma {:induction false} RetryEntryKeepsCopy(p: EventService, m: RetryMember, now: nat, a: Attempt, e0: CredentialIssuedEvent)
    requires Scored(now + Backoff(e0.retryCount), Intact(Successor(e0, now))) in p.retryQueue
    requires m.Corrupt? || m.value.timestamp != now
    ensures Scored(now + Backoff(e0.retryCount), Intact(Successor(e0, now))) in RetryEntry(p, m, now, a).retryQueue
  {
    if m.Intact? && Successor(m.value, now) == Successor(e0, now) {
      assert m.value.retryCount == e0.retryCount;
    }
  }

  /** A member no later member's processing can re-add stays out. */
  lemma {:induction false} RetryAllKeepsOut(p: EventService, batch: seq<RetryMember>, now: nat, attempts: seq<Attempt>, x: RetryMember)
    requires |attempts| >= |batch|
    requires x !in Members(p.retryQueue) && (x.Corrupt? || x.value.timestamp != now)
    decreases |batch|
    ensures x !in Members(RetryAll(p, batch, now, attempts).retryQueue)
  {
    if batch != [] {
      var p1 := RetryEntry(p, batch[0], now, attempts[0]);
      RetryEntryAdds(p, batch[0], now, attempts[0]);
      assert x !in Members(p1.retryQueue);
      RetryAllKeepsOut(p1, batch[1..], now, attempts[1..], x);
    }
  }

  /** A successor copy made at `now` survives the rest of a batch stamped
      before `now`. */
  lemma {:induction false} RetryAllKeepsCopy(p: EventService, batch: seq<RetryMember>, now: nat, attempts: seq<Attempt>, e0: CredentialIssuedEvent)
    requires |attempts| >= |batch| && StampedBefore(batch, now)
    requires Scored(now + Backoff(e0.retryCount), Intact(Successor(e0, now))) in p.retryQueue
    decreases |batch|
    ensures Scored(now + Backoff(e0.retryCount), Intact(Successor(e0, now))) in RetryAll(p, batch, now, attempts).retryQueue
  {
    if batch != [] {
      RetryEntryKeepsCopy(p, batch[0], now, attempts[0], e0);
      var p1 := RetryEntry(p, batch[0], now, attempts[0]);
      assert StampedBefore(batch[1..], now) by {
        forall i | 0 <= i < |batch[1..]| && batch[1..][i].Intact? ensures batch[1..][i].value.timestamp < now {
          assert batch[1..][i] == batch[i + 1];
        }
      }
      RetryAllKeepsCopy(p1, batch[1..], now, attempts[1..], e0);
    }
  }

  /** A scan drains what it fetched: every unparseable, exhausted or
      published member is gone from the set afterwards; every member whose
      publish failed is still there, with its successor due after the
      backoff when its ZADD landed. */
  lemma {:induction false} RetryAllDrains(p: EventService, batch: seq<RetryMember>, now: nat, attempts: seq<Attempt>)
    requires |attempts| >= |batch| && DistinctBatch(batch) && StampedBefore(batch, now)
    decreases |batch|
    ensures var r := RetryAll(p, batch, now, attempts);
      forall i :: 0 <= i < |batch| ==> Drained(p.retryQueue, r.retryQueue, batch[i], attempts[i], now)
  {
    if batch != [] {
      var p1 := RetryEntry(p, batch[0], now, attempts[0]);
      BatchTail(batch, now);
      RetryAllDrains(p1, batch[1..], now, attempts[1..]);
      HeadDrains(p, batch, now, attempts);
      RetryEntryKeepsAll(p, batch[0], now, attempts[0]);
      TailDrains(p, p1, RetryAll(p1, batch[1..], now, attempts[1..]), batch, now, attempts);
    }
  }

  /** The first fetched member is drained by the whole scan. */
  lemma {:induction false} HeadDrains(p: EventService, batch: seq<RetryMember>, now: nat, attempts: seq<Attempt>)
    requires |attempts| >= |batch| && batch != [] && DistinctBatch(batch) && StampedBefore(batch, now)
    ensures Drained(p.retryQueue, RetryAll(p, batch, now, attempts).retryQueue, batch[0], attempts[0], now)
  {
    var m, a := batch[0], attempts[0];
    var p1 := RetryEntry(p, m, now, a);
    BatchTail(batch, now);
    EntryDrains(p, m, now, a);
    if Leaves(m, a) {
      RetryAllKeepsOut(p1, batch[1..], now, attempts[1..], m);
    } else {
      RetryAllKeeps(p1, batch[1..], now, attempts[1..]);
      if a.zaddOk {
        RetryAllKeepsCopy(p1, batch[1..], now, attempts[1..], m.value);
      }
    }
  }

  /** The later fetched members, drained from the state after the first,
      are drained from the start as well. */
  lemma {:induction false} TailDrains(p: EventService, p1: EventService, r: EventService,
                                      batch: seq<RetryMember>, now: nat, attempts: seq<Attempt>)
    requires |attempts| >= |batch| && batch != [] && batch[0] !in batch[1..]
    requires forall x :: x in Members(p.retryQueue) && x != batch[0] ==> x in Members(p1.retryQueue)
    requires forall i :: 0 <= i < |batch[1..]| ==>
      Drained(p1.retryQueue, r.retryQueue, batch[1..][i], attempts[1..][i], now)
    ensures forall i :: 1 <= i < |batch| ==> Drained(p.retryQueue, r.retryQueue, batch[i], attempts[i], now)
  {
    forall i | 1 <= i < |batch| ensures Drained(p.retryQueue, r.retryQueue, batch[i], attempts[i], now) {
      assert batch[1..][i - 1] == batch[i] && attempts[1..][i - 1] == attempts[i];
    }
  }

  /** The drain of a scan over the due batch of a valid set whose copies
      are scheduled ahead. */
  lemma {:induction false} DueBatchDrains(p: EventService, now: nat, attempts: seq<Attempt>)
    requires |attempts| >= RetryBatchLimit
    ensures ValidZSet(p.retryQueue) && ScheduledAhead(p.retryQueue) ==>
      var batch := DueBatch(p.retryQueue, now);
      var r := RetryAll(p, batch, now, attempts);
      forall i :: 0 <= i < |batch| ==> Drained(p.retryQueue, r.retryQueue, batch[i], attempts[i], now)
  {
    if ValidZSet(p.retryQueue) && ScheduledAhead(p.retryQueue) {
      DueBatchFetchedBefore(p.retryQueue, now);
      RetryAllDrains(p, DueBatch(p.retryQueue, now), now, attempts);
    }
  }

  /** A scan keeps every copy scheduled ahead of its timestamp. */
  lemma {:induction false} RetryAllAhead(p: EventService, batch: seq<RetryMember>, now: nat, attempts: seq<Attempt>)
    requires |attempts| >= |batch|
    decreases |batch|
    ensures ScheduledAhead(p.retryQueue) ==> ScheduledAhead(RetryAll(p, batch, now, attempts).retryQueue)
  {
    if batch != [] && ScheduledAhead(p.retryQueue) {
      RetryEntryAdds(p, batch[0], now, attempts[0]);
      RetryAllAhead(RetryEntry(p, batch[0], now, attempts[0]), batch[1..], now, attempts[1..]);
    }
  }

  /** A publish keeps every copy scheduled ahead of its timestamp. */
  lemma {:induction false} PublishKeepsAhead(p: EventService, c: Credential, now: nat, publishOk: bool, zaddOk: bool)
    requires ScheduledAhead(p.retryQueue)
    ensures ScheduledAhead(PublishCredentialIssued(p, c, now, publishOk, zaddOk).retryQueue)
  {
  }

  /** processRetryQueue, one tick of the five-second timer, as one atomic
      step at instant `now`: fetch the due members and process each in
      turn. When the fetch fails the tick does nothing. */
  function ProcessRetryQueue(p: EventService, now: nat, fetchOk: bool, attempts: seq<Attempt>): (r: EventService)
    requires |attempts| >= RetryBatchLimit
    ensures !fetchOk ==> r == p
    ensures fetchOk ==> var batch := DueBatch(p.retryQueue, now);
      && Extends(p, r)
      && NewlyPublished(p, r) == Republished(batch, attempts)
      && NewlyDeadLettered(p, r) == Exhausted(batch, attempts, now)
      && |NewlyPublished(p, r)| <= RetryBatchLimit && |NewlyDeadLettered(p, r)| <= RetryBatchLimit
      && RetriesOf(NewlyPublished(p, r), batch)
      && ExhaustedOf(NewlyDeadLettered(p, r), batch, now)
      && (forall x :: x in Members(p.retryQueue) && x !in batch ==> x in Members(r.retryQueue))
    ensures Get(r.counters, Count(Published)) == Get(p.counters, Count(Published))
    ensures Get(r.counters, Count(Failed)) == Get(p.counters, Count(Failed))
    ensures Get(r.counters, Count(Retried)) + |p.channel| == Get(p.counters, Count(Retried)) + |r.channel|
    ensures Get(r.counters, Count(DeadLettered)) + |p.deadLetter| == Get(p.counters, Count(DeadLettered)) + |r.deadLetter|
    ensures Grows(p.counters, r.counters)
    ensures ValidZSet(p.retryQueue) && LineageBounded(p.retryQueue) ==>
      ValidZSet(r.retryQueue) && LineageBounded(r.retryQueue)
    ensures ScheduledAhead(p.retryQueue) ==> ScheduledAhead(r.retryQueue)
    ensures fetchOk && ValidZSet(p.retryQueue) && ScheduledAhead(p.retryQueue) ==>
      var batch := DueBatch(p.retryQueue, now);
      forall i :: 0 <= i < |batch| ==> Drained(p.retryQueue, r.retryQueue, batch[i], attempts[i], now)
    ensures fetchOk && PushesLand(attempts) ==>
      forall x :: x in Members(p.retryQueue) && x !in Members(r.retryQueue) ==>
        x in DueBatch(p.retryQueue, now) && Settled(x, p, r, now)
  {
    if !fetchOk then p
    else
      var batch := DueBatch(p.retryQueue, now);
      var r := RetryAll(p, batch, now, attempts);
      RetryAllOutputs(p, batch, now, attempts);
      RepublishedAreRetries(batch, attempts);
      ExhaustedAreFetched(batch, attempts, now);
      RetryAllCounters(p, batch, now, attempts);
      RetryAllKeeps(p, batch, now, attempts);
      RetryAllQueue(p, batch, now, attempts);
      RetryAllSettles(p, batch, now, attempts);
      RetryAllAhead(p, batch, now, attempts);
      DueBatchDrains(p, now, attempts);
      r
  }

  /** The copy of `e` in the retry set after one failed attempt at each of
      `times`, in order. */
  function Lineage(e: CredentialIssuedEvent, times: seq<nat>): CredentialIssuedEvent
    decreases |times|
  {
    if times == [] then e else Successor(Lineage(e, times[..|times| - 1]), times[|times| - 1])
  }

  /** Every copy keeps the event's identity and credential and counts its
      failed attempts. */
  lemma {:induction false} LineageKeepsIdentity(e: CredentialIssuedEvent, times: seq<nat>)
    decreases |times|
    ensures var x := Lineage(e, times);
      && x.retryCount == e.retryCount + |times|
      && x.eventId == e.eventId && x.correlationId == e.correlationId
      && x.credential == e.credential && x.maxRetries == e.maxRetries
  {
    if times != [] {
      LineageKeepsIdentity(e, times[..|times| - 1]);
    }
  }

  /** An event whose every publish fails: its copy with k failed attempts is
      published again while k < 5, and its next copy is due after
      Backoff(k) (1, 2, 4, 8, 16 seconds); the copy with 5 is never
      published and goes to the dead-letter list. So the event is attempted
      at counts 0 to 4 only. */
  lemma {:induction false} AlwaysFailingSchedule(p: EventService, c: Credential, t0: nat, times: seq<nat>, now: nat, a: Attempt)
    requires !a.publishOk
    ensures var x := Lineage(NewEvent(c, t0), times);
      && x.retryCount == |times| && x.credential == c
      && RetryEntry(p, Intact(x), now, a).channel == p.channel
      && (|times| < MaxRetries && a.zaddOk ==>
            Scored(now + Backoff(|times|), Intact(Lineage(NewEvent(c, t0), times + [now])))
              in RetryEntry(p, Intact(x), now, a).retryQueue)
      && (|times| >= MaxRetries && a.lpushOk <==> DeadOutcome(Intact(x), a, now) != [])
  {
    var e := NewEvent(c, t0);
    LineageKeepsIdentity(e, times);
    assert (times + [now])[..|times|] == times;
    RetryEntryCases(p, Intact(Lineage(e, times)), now, a);
  }

  /** The first copy a failed publish puts in the retry set is the one-step
      lineage of the new event, due one second later. */
  lemma {:induction false} FirstCopyIsLineage(p: EventService, c: Credential, now: nat)
    ensures Scored(now + BaseDelay, Intact(Lineage(NewEvent(c, now), [now])))
      in PublishCredentialIssued(p, c, now, false, true).retryQueue
  {
    assert [now][..0] == [];
  }
}

=== FILE: subscriber.dfy ===
/** The verifying side's consumer of credential events (class
    EventSubscriber): it parses each channel message, drops event ids it has
    already applied, writes the carried credential into its own store unless
    a row with that id exists, records the sync for monitoring, and captures
    every failure in a bounded list that an operator can replay.

    Handlers run one message at a time; `now` is the wall clock in
    milliseconds and the `Faults` argument says which broker and store
    commands succeed. */
module Subscriber {
  import opened Wrappers
  import opened Credentials
  import opened Broker
  import opened Counters

  const MaxProcessedEvents: nat := 10000
  const MaxFailedEvents: nat := 1000
  const MaxTimeline: nat := 1000
  const FailedRetryDelay: nat := 30000

  /** What made the handling of a message fail. */
  datatype Cause = Unparseable | NoCredential | StoreDown

  /** An entry of the failed-events list: the raw message, why it failed,
      when, and when it was meant to be retried. */
  datatype FailedEnvelope = FailedEnvelope(message: Message, error: Cause, failedAt: nat, retryAt: nat)

  /** The monitoring record of one applied credential. */
  datatype SyncRecord = SyncRecord(
    credentialId: string,
    eventId: string,
    correlationId: string,
    syncedAt: nat,
    holderName: string,
    credentialType: string,
    originalTimestamp: nat)

  datatype Outcome = ProcessedSuccess | ProcessedFailed

  /** metrics:verification:<outcome> and its per-day key. */
  datatype SubKey = Tally(outcome: Outcome) | TallyOn(outcome: Outcome, day: nat)

  /** The subscriber's memory and the broker and store state it writes.
      `listening` is the isListening flag, which is set exactly while the
      channel subscription is active; `processed` is the dedup cache in insertion order; `handlers` counts
      the message handlers registered on the subscription connection;
      `failed` is newest first (LPUSH). */
  datatype EventSubscriber = EventSubscriber(
    listening: bool,
    handlers: nat,
    processed: seq<string>,
    store: Store,
    failed: seq<Stored<FailedEnvelope>>,
    synced: map<string, SyncRecord>,
    timeline: seq<Scored<Stored<SyncRecord>>>,
    counters: map<SubKey, nat>)

  /** The outcomes of the store and broker commands one handling issues.
      `trackWrites` and `captureWrites` are how many of the sync-tracking
      writes (hash, timeline add, timeline trim) and of the failure-capture
      writes (push, trim) succeed before the first one that fails. */
  datatype Faults = Faults(lookupOk: bool, insertOk: bool, trackWrites: nat, captureWrites: nat)

  /** A freshly constructed subscriber over a given store. */
  function Fresh(store: Store): (s: EventSubscriber)
    ensures !s.listening && s.handlers == 0 && s.processed == []
    ensures s.store == store && s.failed == []
  {
    EventSubscriber(false, 0, [], store, [], map[], [], map[])
  }

  /** startListening: a no-op when already listening. Otherwise a message
      handler is registered first, then the channel subscription is
      attempted; only its success sets the flag, and its failure is
      rethrown (the second component). */
  function StartListening(s: EventSubscriber, subscribeOk: bool): (r: (EventSubscriber, bool))
    ensures s.listening ==> r == (s, false)
    ensures !s.listening ==> r.0.handlers == s.handlers + 1
    ensures !s.listening ==> (r.0.listening <==> subscribeOk) && (r.1 <==> !subscribeOk)
    ensures r.0 == s.(handlers := r.0.handlers, listening := r.0.listening)
  {
    if s.listening then (s, false)
    else
      var registered := s.(handlers := s.handlers + 1);
      if subscribeOk then (registered.(listening := true), false)
      else (registered, true)
  }

  /** stopListening: a no-op when not listening; a failed unsubscribe is
      logged and leaves the subscriber listening. The registered handlers
      stay registered. */
  function StopListening(s: EventSubscriber, unsubscribeOk: bool): (r: EventSubscriber)
    ensures !s.listening || !unsubscribeOk ==> r == s
    ensures s.listening && unsubscribeOk ==> !r.listening
    ensures r == s.(listening := r.listening)
  {
    if s.listening && unsubscribeOk then s.(listening := false) else s
  }

  /** A stop and a new start between successful subscribes leave two
      handlers on the connection, so each later message is handled twice. */
  lemma {:induction false} RestartDoublesHandlers(store: Store)
    ensures var s1 := StartListening(Fresh(store), true).0;
      var s2 := StopListening(s1, true);
      var s3 := StartListening(s2, true).0;
      s1.handlers == 1 && s3.listening && s3.handlers == 2
  {
  }

  /** A JavaScript Set iterates in insertion order; adding an id already
      present changes nothing. */
  function SetAdd(cache: seq<string>, id: string): (r: seq<string>)
    ensures id in r
  {
    if id in cache then cache else cache + [id]
  }

  /** addToProcessedEvents: add the id; above 10000 ids drop the oldest
      half (rounded down). */
  function AddToProcessedEvents(cache: seq<string>, id: string): (r: seq<string>)
    ensures var s := SetAdd(cache, id);
      && |r| <= |s| && r == s[|s| - |r|..]
    ensures id !in cache || |cache| <= MaxProcessedEvents ==> id in r
  {
    var s := SetAdd(cache, id);
    if |s| > MaxProcessedEvents then
      assert id !in cache ==> s[|s| - 1] == id;
      s[|s| / 2..]
    else s
  }

  predicate NoDuplicates(xs: seq<string>) {
    forall i, j :: 0 <= i < j < |xs| ==> xs[i] != xs[j]
  }

  /** The cache never holds more than 10000 ids nor any id twice; an
      eviction keeps exactly the newest ceil(n/2) of the n ids. */
  lemma {:induction false} ProcessedCacheBounded(cache: seq<string>, id: string)
    requires |cache| <= MaxProcessedEvents && NoDuplicates(cache)
    ensures var r := AddToProcessedEvents(cache, id);
      && |r| <= MaxProcessedEvents && NoDuplicates(r)
      && (id !in cache && |cache| == MaxProcessedEvents ==> |r| == 5001 && r == (cache + [id])[5000..])
      && (id !in cache && |cache| < MaxProcessedEvents ==> r == cache + [id])
  {
    var s := SetAdd(cache, id);
    var r := AddToProcessedEvents(cache, id);
    SetAddNoDuplicates(cache, id);
    SuffixNoDuplicates(s, |s| - |r|);
  }

  lemma {:induction false} SetAddNoDuplicates(cache: seq<string>, id: string)
    requires NoDuplicates(cache)
    ensures NoDuplicates(SetAdd(cache, id))
  {
    var s := SetAdd(cache, id);
    if id !in cache {
      forall i, j | 0 <= i < j < |s| ensures s[i] != s[j] {
        if j == |cache| { assert s[i] == cache[i]; }
        else { assert s[i] == cache[i] && s[j] == cache[j]; }
      }
    }
  }

  lemma {:induction false} SuffixNoDuplicates(s: seq<string>, k: nat)
    requires NoDuplicates(s) && k <= |s|
    ensures NoDuplicates(s[k..])
  {
    forall i, j | 0 <= i < j < |s[k..]| ensures s[k..][i] != s[k..][j] {
      assert s[k..][i] == s[k + i] && s[k..][j] == s[k + j];
    }
  }

  /** incrementMetric: the outcome's counter and its counter for the day. */
  function IncrementOutcome(c: map<SubKey, nat>, o: Outcome, now: nat): (r: map<SubKey, nat>)
    ensures Get(r, Tally(o)) == Get(c, Tally(o)) + 1
    ensures Get(r, TallyOn(o, DayOf(now))) == Get(c, TallyOn(o, DayOf(now))) + 1
    ensures forall k :: k != Tally(o) && k != TallyOn(o, DayOf(now)) ==> Get(r, k) == Get(c, k)
    ensures Grows(c, r)
  {
    Incr(Incr(c, Tally(o)), TallyOn(o, DayOf(now)))
  }

  /** The monitoring record of applying `c` from event `e` at `now`. */
  function SyncOf(c: Credential, e: WireEvent, now: nat): (rec: SyncRecord)
    ensures rec.credentialId == c.id && rec.eventId == e.eventId && rec.syncedAt == now
  {
    SyncRecord(c.id, e.eventId, e.correlationId, now, c.holderName, c.credentialType, e.timestamp)
  }

  /** ZREMRANGEBYRANK sync-timeline 0 -1001: keep the 1000 newest records. */
  function TrimTimeline(t: seq<Scored<Stored<SyncRecord>>>): (r: seq<Scored<Stored<SyncRecord>>>)
    ensures |r| <= MaxTimeline
    ensures r == if |t| > MaxTimeline then t[|t| - MaxTimeline..] else t
    ensures ValidZSet(t) ==> ValidZSet(r)
  {
    TrimKeepsHighest(t, MaxTimeline);
    TrimKeepsValid(t, MaxTimeline);
    ZRemRangeByRank(t, 0, -(MaxTimeline + 1))
  }

  /** trackSyncedCredential: index the sync record by credential id, add it
      to the timeline scored by `now`, and trim the timeline to its 1000
      newest records. Each write runs only if the previous one succeeded;
      errors are swallowed. */
  function TrackSynced(s: EventSubscriber, c: Credential, e: WireEvent, now: nat, writes: nat): (r: EventSubscriber)
    ensures writes >= 1 ==> r.synced == s.synced[c.id := SyncOf(c, e, now)]
    ensures writes == 0 ==> r.synced == s.synced
    ensures writes == 2 ==> Members(r.timeline) == Members(s.timeline) + {Intact(SyncOf(c, e, now))}
    ensures writes >= 2 ==> Members(r.timeline) <= Members(s.timeline) + {Intact(SyncOf(c, e, now))}
    ensures writes < 2 ==> r.timeline == s.timeline
    ensures writes >= 3 ==> |r.timeline| <= MaxTimeline
    ensures writes >= 3 ==> var added := ZAdd(s.timeline, now, Intact(SyncOf(c, e, now)));
      r.timeline == if |added| > MaxTimeline then added[|added| - MaxTimeline..] else added
    ensures ValidZSet(s.timeline) ==> ValidZSet(r.timeline)
    ensures r == s.(synced := r.synced, timeline := r.timeline)
  {
    var rec := SyncOf(c, e, now);
    var synced := if writes >= 1 then s.synced[c.id := rec] else s.synced;
    var added := if writes >= 2 then ZAdd(s.timeline, now, Intact(rec)) else s.timeline;
    var timeline := if writes >= 3 then TrimTimeline(added) else added;
    s.(synced := synced, timeline := timeline)
  }

  /** handleFailedEvent: push an envelope, then trim the list to its 1000
      newest entries; each write runs only if the previous one succeeded,
      and errors are swallowed. */
  function CaptureFailure(s: EventSubscriber, msg: Message, cause: Cause, now: nat, writes: nat): (r: EventSubscriber)
    ensures |r.failed| <= |s.failed| + 1
    ensures writes >= 1 ==> |r.failed| >= 1 && r.failed[0] == Intact(FailedEnvelope(msg, cause, now, now + FailedRetryDelay))
    ensures writes == 0 ==> r.failed == s.failed
    ensures writes == 1 ==> r.failed == [Intact(FailedEnvelope(msg, cause, now, now + FailedRetryDelay))] + s.failed
    ensures writes >= 2 ==>
      var pushed := [Intact(FailedEnvelope(msg, cause, now, now + FailedRetryDelay))] + s.failed;
      r.failed == pushed[..if |pushed| <= MaxFailedEvents then |pushed| else MaxFailedEvents]
    ensures r == s.(failed := r.failed)
  {
    var pushed := [Intact(FailedEnvelope(msg, cause, now, now + FailedRetryDelay))] + s.failed;
    if writes == 0 then s
    else if writes == 1 then s.(failed := pushed)
    else
      LTrimKeepsFirst(pushed, MaxFailedEvents);
      s.(failed := LTrim(pushed, 0, MaxFailedEvents - 1))
  }

  /** processCredentialIssued: look the credential up by id; skip if a row
      exists, otherwise insert it and record the sync. A missing credential
      or a store error is an error of the handling. */
  function ProcessCredentialIssued(s: EventSubscriber, e: WireEvent, now: nat, f: Faults): (r: Result<EventSubscriber, Cause>)
    ensures r.Failure? <==>
      (e.credential.None? || !f.lookupOk || (e.credential.value.id !in s.store && !f.insertOk))
    ensures r.Failure? ==> r.error == (if e.credential.None? then NoCredential else StoreDown)
    ensures r.Success? && e.credential.value.id in s.store ==> r.value == s
    ensures r.Success? ==> r.value.store == s.store[e.credential.value.id := (
      if e.credential.value.id in s.store then s.store[e.credential.value.id] else e.credential.value)]
    ensures r.Success? ==> r.value.processed == s.processed && r.value.failed == s.failed && r.value.counters == s.counters
  {
    match e.credential
    case None => Failure(NoCredential)
    case Some(c) =>
      match Lookup(s.store, c.id, f.lookupOk)
      case Failure(_) => Failure(StoreDown)
      case Success(existing) =>
        if existing.Some? then Success(s)
        else
          match Credentials.Insert(s.store, c, f.insertOk)
          case Failure(_) => Failure(StoreDown)
          case Success(store) => Success(TrackSynced(s.(store := store), c, e, now, f.trackWrites))
  }

  /** The failure path of handleCredentialEvent: count the failure and
      capture the message. */
  function Fail(s: EventSubscriber, msg: Message, cause: Cause, now: nat, f: Faults): (r: EventSubscriber)
    ensures Get(r.counters, Tally(ProcessedFailed)) == Get(s.counters, Tally(ProcessedFailed)) + 1
    ensures Get(r.counters, Tally(ProcessedSuccess)) == Get(s.counters, Tally(ProcessedSuccess))
    ensures r.store == s.store && r.processed == s.processed && r.synced == s.synced && r.timeline == s.timeline
    ensures f.captureWrites >= 1 ==> |r.failed| >= 1 && r.failed[0] == Intact(FailedEnvelope(msg, cause, now, now + FailedRetryDelay))
  {
    CaptureFailure(s.(counters := IncrementOutcome(s.counters, ProcessedFailed, now)), msg, cause, now, f.captureWrites)
  }

  /** handleCredentialEvent: parse, drop an already-applied event id, ignore
      other event types, apply CREDENTIAL_ISSUED and then cache its id and
      count the success; any error is counted and captured, never
      rethrown. */
  function Handle(s: EventSubscriber, msg: Message, now: nat, f: Faults): (r: EventSubscriber)
    ensures msg.Intact? && msg.value.eventId in s.processed ==> r == s
    ensures msg.Intact? && msg.value.eventType != CredentialIssued ==> r == s
    ensures r.listening == s.listening && r.handlers == s.handlers
  {
    match msg
    case Corrupt(_) => Fail(s, msg, Unparseable, now, f)
    case Intact(e) =>
      if e.eventId in s.processed then s
      else if e.eventType != CredentialIssued then s
      else
        match ProcessCredentialIssued(s, e, now, f)
        case Failure(cause) => Fail(s, msg, cause, now, f)
        case Success(applied) =>
          applied.(processed := AddToProcessedEvents(applied.processed, e.eventId),
                   counters := IncrementOutcome(applied.counters, ProcessedSuccess, now))
  }

  /** A message that is applied: a parseable CREDENTIAL_ISSUED event, not yet
      cached, carrying a credential, with the store reachable. */
  predicate Applies(s: EventSubscriber, msg: Message, f: Faults) {
    && msg.Intact? && msg.value.eventId !in s.processed && msg.value.eventType == CredentialIssued
    && msg.value.credential.Some? && f.lookupOk
    && (msg.value.credential.value.id !in s.store ==> f.insertOk)
  }

  /** A message whose handling fails: unparseable, or a fresh
      CREDENTIAL_ISSUED event whose credential is missing or whose store
      access fails. */
  predicate Fails(s: EventSubscriber, msg: Message, f: Faults) {
    || msg.Corrupt?
    || (&& msg.value.eventId !in s.processed && msg.value.eventType == CredentialIssued
        && !Applies(s, msg, f))
  }

  /** What one handling does, by case. An applied event leaves its
      credential in the store (inserted exactly when its id was absent, the
      existing row untouched otherwise), its id cached, and the success
      counted. A failed one is counted and captured with its id uncached.
      Nothing else happens to the store, and no row ever changes. */
  lemma {:induction false} HandleCases(s: EventSubscriber, msg: Message, now: nat, f: Faults)
    ensures var r := Handle(s, msg, now, f);
      && (Applies(s, msg, f) ==>
            var c := msg.value.credential.value;
            && c.id in r.store
            && r.store == (if c.id in s.store then s.store else s.store[c.id := c])
            && msg.value.eventId in r.processed
            && Get(r.counters, Tally(ProcessedSuccess)) == Get(s.counters, Tally(ProcessedSuccess)) + 1
            && Get(r.counters, Tally(ProcessedFailed)) == Get(s.counters, Tally(ProcessedFailed))
            && r.failed == s.failed)
      && (Fails(s, msg, f) ==>
            && r.store == s.store && r.processed == s.processed
            && Get(r.counters, Tally(ProcessedFailed)) == Get(s.counters, Tally(ProcessedFailed)) + 1
            && Get(r.counters, Tally(ProcessedSuccess)) == Get(s.counters, Tally(ProcessedSuccess))
            && (f.captureWrites >= 1 ==> |r.failed| >= 1 && r.failed[0].Intact? && r.failed[0].value.message == msg))
      && (!Applies(s, msg, f) && !Fails(s, msg, f) ==> r == s)
      && (forall id :: id in s.store ==> id in r.store && r.store[id] == s.store[id])
      && Grows(s.counters, r.counters)
  {
    if Applies(s, msg, f) {
      HandleApplied(s, msg, now, f);
    } else if Fails(s, msg, f) {
      HandleFailed(s, msg, now, f);
    } else {
      HandleIgnored(s, msg, now, f);
    }
  }

  lemma {:induction false} HandleApplied(s: EventSubscriber, msg: Message, now: nat, f: Faults)
    requires Applies(s, msg, f)
    ensures var r := Handle(s, msg, now, f);
      var c := msg.value.credential.value;
      && r.store == (if c.id in s.store then s.store else s.store[c.id := c])
      && msg.value.eventId in r.processed
      && Get(r.counters, Tally(ProcessedSuccess)) == Get(s.counters, Tally(ProcessedSuccess)) + 1
      && Get(r.counters, Tally(ProcessedFailed)) == Get(s.counters, Tally(ProcessedFailed))
      && r.failed == s.failed
      && Grows(s.counters, r.counters)
  {
    var e := msg.value;
    var c := e.credential.value;
    var p := ProcessCredentialIssued(s, e, now, f);
    assert p.Success?;
    var a := p.value;
    assert Handle(s, msg, now, f) == a.(processed := AddToProcessedEvents(a.processed, e.eventId),
                                         counters := IncrementOutcome(a.counters, ProcessedSuccess, now));
    assert a.store == (if c.id in s.store then s.store else s.store[c.id := c]) by {
      if c.id in s.store { assert s.store[c.id := s.store[c.id]] == s.store; }
    }
  }

  lemma {:induction false} HandleFailed(s: EventSubscriber, msg: Message, now: nat, f: Faults)
    requires Fails(s, msg, f)
    ensures var r := Handle(s, msg, now, f);
      && r.store == s.store && r.processed == s.processed
      && Get(r.counters, Tally(ProcessedFailed)) == Get(s.counters, Tally(ProcessedFailed)) + 1
      && Get(r.counters, Tally(ProcessedSuccess)) == Get(s.counters, Tally(ProcessedSuccess))
      && (f.captureWrites >= 1 ==> |r.failed| >= 1 && r.failed[0].Intact? && r.failed[0].value.message == msg)
      && Grows(s.counters, r.counters)
  {
    if msg.Intact? {
      assert ProcessCredentialIssued(s, msg.value, now, f).Failure?;
    }
  }

  lemma {:induction false} HandleIgnored(s: EventSubscriber, msg: Message, now: nat, f: Faults)
    requires !Applies(s, msg, f) && !Fails(s, msg, f)
    ensures Handle(s, msg, now, f) == s
  {
  }

  /** Handling the same message again after it was applied changes
      nothing: one insert, one cached id, one success counted. */
  lemma {:induction false} HandleIdempotent(s: EventSubscriber, msg: Message, now: nat, later: nat, f: Faults, g: Faults)
    requires Applies(s, msg, f)
    ensures var r := Handle(s, msg, now, f);
      Handle(r, msg, later, g) == r
  {
    HandleCases(s, msg, now, f);
  }

  /** Once a row with the credential's id exists, no event for that id
      changes the store, whatever its event id. */
  lemma {:induction false} StoredCredentialIsFinal(s: EventSubscriber, msg: Message, now: nat, f: Faults)
    requires msg.Intact? && msg.value.credential.Some? && msg.value.credential.value.id in s.store
    ensures Handle(s, msg, now, f).store == s.store
  {
    HandleCases(s, msg, now, f);
  }

  /** The invariant of the subscriber's bounded structures. */
  ghost predicate Bounded(s: EventSubscriber) {
    && |s.processed| <= MaxProcessedEvents && NoDuplicates(s.processed)
    && ValidZSet(s.timeline)
  }

  /** Handling keeps the dedup cache within 10000 distinct ids and the
      timeline a valid sorted set; with both capture writes landing, the
      failed list stays within 1000 entries. */
  lemma {:induction false} HandleKeepsBounds(s: EventSubscriber, msg: Message, now: nat, f: Faults)
    requires Bounded(s)
    ensures Bounded(Handle(s, msg, now, f))
    ensures |s.failed| <= MaxFailedEvents && f.captureWrites != 1 ==> |Handle(s, msg, now, f).failed| <= MaxFailedEvents
  {
    if Applies(s, msg, f) {
      var e := msg.value;
      var c := e.credential.value;
      var p := ProcessCredentialIssued(s, e, now, f);
      assert p.Success?;
      var a := p.value;
      assert Handle(s, msg, now, f) == a.(processed := AddToProcessedEvents(a.processed, e.eventId),
                                           counters := IncrementOutcome(a.counters, ProcessedSuccess, now));
      ProcessedCacheBounded(s.processed, e.eventId);
      assert ValidZSet(a.timeline) by {
        if c.id !in s.store {
          assert a == TrackSynced(s.(store := s.store[c.id := c]), c, e, now, f.trackWrites);
        }
      }
    } else if msg.Corrupt? {
      FailKeepsBounds(s, msg, Unparseable, now, f);
    } else if Fails(s, msg, f) {
      var p := ProcessCredentialIssued(s, msg.value, now, f);
      assert p.Failure?;
      FailKeepsBounds(s, msg, p.error, now, f);
    } else {
      HandleIgnored(s, msg, now, f);
    }
  }

  /** The failure path keeps the bounded structures, and the failed list
      within its bound unless only the push lands. */
  lemma {:induction false} FailKeepsBounds(s: EventSubscriber, msg: Message, cause: Cause, now: nat, f: Faults)
    ensures Bounded(s) ==> Bounded(Fail(s, msg, cause, now, f))
    ensures |s.failed| <= MaxFailedEvents && f.captureWrites != 1 ==> |Fail(s, msg, cause, now, f).failed| <= MaxFailedEvents
  {
  }

  /** A single capture write (the push landed, the trim did not) lets the
      failed list exceed its bound by one. */
  lemma {:induction false} UntrimmedCaptureOverflows(s: EventSubscriber, now: nat, f: Faults)
    requires |s.failed| == MaxFailedEvents && f.captureWrites == 1
    ensures |Handle(s, Corrupt(""), now, f).failed| == MaxFailedEvents + 1
  {
  }

  /** One message delivered on the channel: every registered handler runs
      on it, one after the other. Nothing is delivered while unsubscribed. */
  function Deliver(s: EventSubscriber, msg: Message, now: nat, faults: seq<Faults>): (r: EventSubscriber)
    requires |faults| >= s.handlers
    ensures !s.listening ==> r == s
    ensures s.listening && s.handlers == 1 ==> r == Handle(s, msg, now, faults[0])
    ensures r.handlers == s.handlers && r.listening == s.listening
  {
    if s.listening then RunHandlers(s, msg, now, faults, s.handlers) else s
  }

  function RunHandlers(s: EventSubscriber, msg: Message, now: nat, faults: seq<Faults>, n: nat): (r: EventSubscriber)
    requires |faults| >= n
    decreases n
    ensures r.handlers == s.handlers && r.listening == s.listening
  {
    if n == 0 then s else RunHandlers(Handle(s, msg, now, faults[0]), msg, now, faults[1..], n - 1)
  }

  /** With a duplicated handler an applied event is handled twice, and the
      second handling is a dedup skip: the result is that of one handling. */
  lemma {:induction false} DoubleDeliveryAppliesOnce(s: EventSubscriber, msg: Message, now: nat, faults: seq<Faults>)
    requires s.listening && s.handlers == 2 && |faults| >= 2
    requires Applies(s, msg, faults[0])
    ensures Deliver(s, msg, now, faults) == Handle(s, msg, now, faults[0])
  {
    var r := Handle(s, msg, now, faults[0]);
    HandleIdempotent(s, msg, now, now, faults[0], faults[1]);
    assert RunHandlers(r, msg, now, faults[1..], 1) == RunHandlers(Handle(r, msg, now, faults[1]), msg, now, faults[2..], 0);
  }

  /** Replays the entries of the failed list, in list order, one handling
      per parseable envelope; returns the number of envelopes handled. */
  function Replay(s: EventSubscriber, entries: seq<Stored<FailedEnvelope>>, now: nat, faults: seq<Faults>): (r: (nat, EventSubscriber))
    requires |faults| >= |entries|
    decreases |entries|
    ensures r.0 == CountIntact(entries)
    ensures r.1.handlers == s.handlers && r.1.listening == s.listening
  {
    if entries == [] then (0, s)
    else
      var next := if entries[0].Intact? then Handle(s, entries[0].value.message, now, faults[0]) else s;
      var rest := Replay(next, entries[1..], now, faults[1..]);
      ((if entries[0].Intact? then 1 else 0) + rest.0, rest.1)
  }

  /** The number of parseable envelopes. */
  function CountIntact(entries: seq<Stored<FailedEnvelope>>): (n: nat)
    ensures n <= |entries|
  {
    if entries == [] then 0 else (if entries[0].Intact? then 1 else 0) + CountIntact(entries[1..])
  }

  /** reprocessFailedEvents: re-handle the message of every parseable
      envelope (re-handling never throws, so each counts) and, if any was
      handled, delete the whole list, including envelopes re-captured
      during the pass. A failed read returns 0; a failed delete also
      returns 0, after the handlings happened. */
  function ReprocessFailedEvents(s: EventSubscriber, now: nat, readOk: bool, faults: seq<Faults>, delOk: bool): (r: (nat, EventSubscriber))
    requires |faults| >= |s.failed|
    ensures !readOk ==> r == (0, s)
    ensures readOk && delOk ==> r.0 == CountIntact(s.failed)
    ensures r.0 > 0 ==> r.1.failed == []
    ensures readOk && CountIntact(s.failed) == 0 ==> r == (0, s)
    ensures r.0 <= |s.failed|
  {
    if !readOk then (0, s)
    else
      var (count, handled) := Replay(s, s.failed, now, faults);
      if count == 0 then
        ReplayOfNothing(s, s.failed, now, faults);
        (0, s)
      else if delOk then (count, handled.(failed := []))
      else (0, handled)
  }

  /** Replaying a list with no parseable envelope touches nothing. */
  lemma {:induction false} ReplayOfNothing(s: EventSubscriber, entries: seq<Stored<FailedEnvelope>>, now: nat, faults: seq<Faults>)
    requires |faults| >= |entries| && CountIntact(entries) == 0
    decreases |entries|
    ensures Replay(s, entries, now, faults).1 == s
  {
    if entries != [] {
      ReplayOfNothing(s, entries[1..], now, faults[1..]);
    }
  }

  /** Replaying a list is replaying its first `i` entries and then the
      rest on the state they leave. */
  lemma {:induction false} ReplaySplit(s: EventSubscriber, entries: seq<Stored<FailedEnvelope>>, now: nat, faults: seq<Faults>, i: nat)
    requires |faults| >= |entries| && i <= |entries|
    decreases i
    ensures Replay(s, entries, now, faults).1
         == Replay(Replay(s, entries[..i], now, faults).1, entries[i..], now, faults[i..]).1
  {
    if i == 0 {
      assert entries[..0] == [] && entries[0..] == entries && faults[0..] == faults;
    } else {
      var next := if entries[0].Intact? then Handle(s, entries[0].value.message, now, faults[0]) else s;
      ReplaySplit(next, entries[1..], now, faults[1..], i - 1);
      assert entries[..i][0] == entries[0] && entries[..i][1..] == entries[1..][..i - 1];
      assert entries[1..][i - 1..] == entries[i..] && faults[1..][i - 1..] == faults[i..];
    }
  }

  /** A replay never removes or rewrites a stored row. */
  lemma {:induction false} ReplayKeepsRows(s: EventSubscriber, entries: seq<Stored<FailedEnvelope>>, now: nat, faults: seq<Faults>)
    requires |faults| >= |entries|
    decreases |entries|
    ensures var r := Replay(s, entries, now, faults).1;
      forall id :: id in s.store ==> id in r.store && r.store[id] == s.store[id]
  {
    if entries != [] {
      if entries[0].Intact? {
        HandleCases(s, entries[0].value.message, now, faults[0]);
      }
      var next := if entries[0].Intact? then Handle(s, entries[0].value.message, now, faults[0]) else s;
      ReplayKeepsRows(next, entries[1..], now, faults[1..]);
    }
  }

  /** A list with a parseable envelope has a positive count. */
  lemma {:induction false} IntactCounted(entries: seq<Stored<FailedEnvelope>>, i: nat)
    requires i < |entries| && entries[i].Intact?
    decreases i
    ensures CountIntact(entries) > 0
  {
    if i > 0 && !entries[0].Intact? {
      IntactCounted(entries[1..], i - 1);
    }
  }

  /** An envelope whose message applies on the state the earlier envelopes
      leave has its credential stored at the end of the replay. */
  lemma {:induction false} ReplayStoresApplied(s: EventSubscriber, entries: seq<Stored<FailedEnvelope>>, now: nat, faults: seq<Faults>, i: nat)
    requires |faults| >= |entries| && i < |entries| && entries[i].Intact?
    requires Applies(Replay(s, entries[..i], now, faults).1, entries[i].value.message, faults[i])
    ensures entries[i].value.message.value.credential.value.id in Replay(s, entries, now, faults).1.store
  {
    var msg := entries[i].value.message;
    var mid := Replay(s, entries[..i], now, faults).1;
    ReplaySplit(s, entries, now, faults, i);
    HandleApplied(mid, msg, now, faults[i]);
    var h := Handle(mid, msg, now, faults[i]);
    assert entries[i..][0] == entries[i] && entries[i..][1..] == entries[i + 1..];
    assert Replay(mid, entries[i..], now, faults[i..]).1 == Replay(h, entries[i + 1..], now, faults[i..][1..]).1;
    ReplayKeepsRows(h, entries[i + 1..], now, faults[i..][1..]);
  }

  /** Reprocessing re-handles every envelope: one whose message applies on
      the state the earlier envelopes leave (a fresh CREDENTIAL_ISSUED
      event with its lookup, and its insert if needed, landing) has its
      credential stored afterwards, whether or not the delete lands. */
  lemma {:induction false} ReprocessAppliesEnvelope(s: EventSubscriber, now: nat, faults: seq<Faults>, delOk: bool, i: nat)
    requires |faults| >= |s.failed| && i < |s.failed| && s.failed[i].Intact?
    requires Applies(Replay(s, s.failed[..i], now, faults).1, s.failed[i].value.message, faults[i])
    ensures var (count, r) := ReprocessFailedEvents(s, now, true, faults, delOk);
      && s.failed[i].value.message.value.credential.value.id in r.store
      && count == (if delOk then CountIntact(s.failed) else 0)
  {
    ReplayStoresApplied(s, s.failed, now, faults, i);
    IntactCounted(s.failed, i);
  }

  /** Every store lookup fails. */
  predicate Outage(faults: seq<Faults>) {
    forall i :: 0 <= i < |faults| ==> !faults[i].lookupOk
  }

  /** A message whose handling fails during an outage, given the cached ids:
      unparseable, or a CREDENTIAL_ISSUED event whose id is not cached. */
  predicate Refails(processed: seq<string>, msg: Message) {
    msg.Corrupt? || (msg.value.eventId !in processed && msg.value.eventType == CredentialIssued)
  }

  /** The number of parseable envelopes whose message fails again. */
  function Refailing(processed: seq<string>, entries: seq<Stored<FailedEnvelope>>): (n: nat)
    ensures n <= CountIntact(entries)
    ensures (forall i :: 0 <= i < |entries| && entries[i].Intact? ==> Refails(processed, entries[i].value.message)) ==>
      n == CountIntact(entries)
  {
    if entries == [] then 0
    else
      (if entries[0].Intact? && Refails(processed, entries[0].value.message) then 1 else 0)
      + Refailing(processed, entries[1..])
  }

  /** A replay during an outage stores nothing and caches nothing; it
      counts one failure per envelope whose message fails again and no
      success. */
  lemma {:induction false} ReplayInOutage(s: EventSubscriber, entries: seq<Stored<FailedEnvelope>>, now: nat, faults: seq<Faults>)
    requires |faults| >= |entries| && Outage(faults)
    decreases |entries|
    ensures var r := Replay(s, entries, now, faults).1;
      && r.store == s.store && r.processed == s.processed
      && Get(r.counters, Tally(ProcessedFailed)) == Get(s.counters, Tally(ProcessedFailed)) + Refailing(s.processed, entries)
      && Get(r.counters, Tally(ProcessedSuccess)) == Get(s.counters, Tally(ProcessedSuccess))
  {
    if entries != [] {
      if entries[0].Intact? {
        HandleCases(s, entries[0].value.message, now, faults[0]);
      }
      var next := if entries[0].Intact? then Handle(s, entries[0].value.message, now, faults[0]) else s;
      assert Outage(faults[1..]) by {
        forall i | 0 <= i < |faults[1..]| ensures !faults[1..][i].lookupOk {
          assert faults[1..][i] == faults[i + 1];
        }
      }
      ReplayInOutage(next, entries[1..], now, faults[1..]);
    }
  }

  /** A replay during a store outage loses its messages: each one that
      fails again is counted as a failure and re-captured, yet every
      parseable envelope is counted as reprocessed and the delete then
      drops the list, so none of them is stored or left to replay. */
  lemma {:induction false} ReplayDuringOutageLoses(s: EventSubscriber, now: nat, faults: seq<Faults>)
    requires |faults| >= |s.failed| && CountIntact(s.failed) > 0 && Outage(faults)
    ensures var (count, r) := ReprocessFailedEvents(s, now, true, faults, true);
      && count == CountIntact(s.failed) && r.failed == [] && r.store == s.store && r.processed == s.processed
      && Get(r.counters, Tally(ProcessedFailed)) == Get(s.counters, Tally(ProcessedFailed)) + Refailing(s.processed, s.failed)
      && Get(r.counters, Tally(ProcessedSuccess)) == Get(s.counters, Tally(ProcessedSuccess))
  {
    ReplayInOutage(s, s.failed, now, faults);
  }

  datatype SubscriberMetrics = SubscriberMetrics(
    processedSuccess: nat,
    processedFailed: nat,
    failedQueueSize: nat,
    isListening: bool,
    processedEventsInMemory: Option<nat>)

  /** getMetrics: the two outcome counters, the failed-list length, the
      listening flag and the cache size; on a broker error zeros, the flag,
      and no cache size. */
  function GetMetrics(s: EventSubscriber, readOk: bool): (m: SubscriberMetrics)
    ensures m.isListening == s.listening
    ensures readOk ==>
      && m.processedSuccess == Get(s.counters, Tally(ProcessedSuccess))
      && m.processedFailed == Get(s.counters, Tally(ProcessedFailed))
      && m.failedQueueSize == |s.failed| && m.processedEventsInMemory == Some(|s.processed|)
    ensures !readOk ==> m == SubscriberMetrics(0, 0, 0, s.listening, None)
  {
    if readOk then
      SubscriberMetrics(Get(s.counters, Tally(ProcessedSuccess)), Get(s.counters, Tally(ProcessedFailed)),
                        |s.failed|, s.listening, Some(|s.processed|))
    else SubscriberMetrics(0, 0, 0, s.listening, None)
  }

  /** The reported counters follow the handlings: an applied message adds
      one success, a failed one adds one failure, an ignored one neither. */
  lemma {:induction false} MetricsCountHandling(s: EventSubscriber, msg: Message, now: nat, f: Faults)
    ensures var before := GetMetrics(s, true);
      var after := GetMetrics(Handle(s, msg, now, f), true);
      && (Applies(s, msg, f) ==>
            after.processedSuccess == before.processedSuccess + 1 && after.processedFailed == before.processedFailed)
      && (Fails(s, msg, f) ==>
            after.processedFailed == before.processedFailed + 1 && after.processedSuccess == before.processedSuccess)
      && (!Applies(s, msg, f) && !Fails(s, msg, f) ==> after == before)
  {
    HandleCases(s, msg, now, f);
  }

  /** The parseable records, in order. */
  function Parsed(xs: seq<Stored<SyncRecord>>): (r: seq<SyncRecord>)
    ensures |r| <= |xs|
    ensures forall x :: x in r ==> Intact(x) in xs
  {
    if xs == [] then []
    else (if xs[0].Intact? then [xs[0].value] else []) + Parsed(xs[1..])
  }

  /** getSyncedCredentials: the `limit` newest timeline records, newest
      first, unparseable ones dropped; an empty list on a broker error. A
      limit of 0 asks for ranks 0..-1, which is the whole timeline. */
  function GetSyncedCredentials(s: EventSubscriber, limit: int, readOk: bool): (r: seq<SyncRecord>)
    ensures !readOk ==> r == []
    ensures limit >= 1 ==> |r| <= limit
    ensures |r| <= |s.timeline|
    ensures forall x :: x in r ==> Intact(x) in Members(s.timeline)
  {
    if !readOk then []
    else
      RevRangeTop(s.timeline, limit);
      var raw := ZRevRange(s.timeline, 0, limit - 1);
      assert forall x :: x in raw ==> x in Members(s.timeline) by {
        forall x | x in raw ensures x in Members(s.timeline) {
          var i :| 0 <= i < |raw| && raw[i] == x;
          assert s.timeline[|s.timeline| - 1 - i] in s.timeline;
        }
      }
      Parsed(raw)
  }

  /** With every record parseable, the read returns the newest
      min(limit, n) records, newest first; with limit 0, all of them. */
  lemma {:induction false} SyncedNewestFirst(s: EventSubscriber, limit: int)
    requires forall i :: 0 <= i < |s.timeline| ==> s.timeline[i].member.Intact?
    ensures var r := GetSyncedCredentials(s, limit, true);
      && (limit >= 1 ==> |r| == if |s.timeline| < limit then |s.timeline| else limit)
      && (limit == 0 ==> |r| == |s.timeline|)
      && forall i :: 0 <= i < |r| ==> r[i] == s.timeline[|s.timeline| - 1 - i].member.value
  {
    RevRangeTop(s.timeline, limit);
    var raw := ZRevRange(s.timeline, 0, limit - 1);
    ParsedAllIntact(raw);
  }

  lemma {:induction false} ParsedAllIntact(xs: seq<Stored<SyncRecord>>)
    requires forall i :: 0 <= i < |xs| ==> xs[i].Intact?
    ensures |Parsed(xs)| == |xs|
    ensures forall i :: 0 <= i < |xs| ==> Parsed(xs)[i] == xs[i].value
  {
    if xs != [] {
      ParsedAllIntact(xs[1..]);
    }
  }
}

=== FILE: verification.dfy ===
/** The verifying service (class VerificationService): a lookup by id in the
    verifying store, mapped onto a response. */
module Verification {
  import opened Wrappers
  import opened Credentials

  datatype VerificationResponse = VerificationResponse(
    success: bool,
    message: string,
    credential: Option<Credential>,
    workerId: string,
    timestamp: nat,
    isValid: bool)

  const VerifyError: string := "Failed to verify credential"

  /** verifyCredential: a found row is a valid credential, a missing one an
      invalid one; a store error is thrown as "Failed to verify credential".
      The store is only read. */
  function VerifyCredential(store: Store, id: string, workerId: string, now: nat, lookupOk: bool)
    : (r: Result<VerificationResponse, string>)
    ensures r.Failure? <==> !lookupOk
    ensures r.Failure? ==> r.error == VerifyError
    ensures r.Success? ==> r.value.success == r.value.isValid
    ensures r.Success? ==> (r.value.isValid <==> id in store)
    ensures r.Success? && id in store ==> r.value.credential == Some(store[id])
    ensures r.Success? && id !in store ==>
      && r.value.credential.None?
      && r.value.message == "Credential with ID " + id + " not found or invalid"
    ensures r.Success? ==> r.value.workerId == workerId && r.value.timestamp == now
  {
    match Lookup(store, id, lookupOk)
    case Failure(_) => Failure(VerifyError)
    case Success(found) =>
      if found.Some? then
        Success(VerificationResponse(true, "Credential verified by worker-" + workerId, found, workerId, now, true))
      else
        Success(VerificationResponse(false, "Credential with ID " + id + " not found or invalid", None, workerId, now, false))
  }
}

=== FILE: wrappers.dfy ===
/** Failure-carrying wrappers used for the source's optional fields,
    thrown errors and "found / not found" lookups. */
module Wrappers {

  /** A value that may be absent (an optional field, a lookup miss). */
  datatype Option<+T> = None | Some(value: T)

  /** The outcome of an operation that may throw: a value or an error. */
  datatype Result<+R, +E> = Success(value: R) | Failure(error: E)
}
